=== FILE: README.md ===
# ADS1118 driver and type K thermocouple tables, modelled in Dafny

The repository is a Raspberry Pi driver for the ADS1118, a 16-bit
analogue-to-digital converter with an internal temperature sensor. It is
paired with a table-driven converter for type K thermocouples. This project
models the parts of the driver that are logic rather than pin wiggling, and
proves properties of that model:

- **Bit codec** (`BitCodec`). This covers big-endian bit lists and the
  integers they stand for (`int_to_list`, `list_to_int`) and the bytearray
  helpers.
- **Configuration word** (`ConfigWord`). This covers:
  - the 16-bit layout `encode` builds and `decode` reads back;
  - the least-significant-bit size for each gain code (`gains`);
  - the internal-temperature command `INT_TEMP`.
- **Conversion** (`Conversion`). This covers two's-complement decoding of
  a reading scaled by one LSB step (`convert`). It also covers the choice
  between a temperature reading and a voltage reading made from the echoed
  configuration (`interpret`).
- **Protocol** (`Protocol`). This covers:
  - the echo check `verify`;
  - one 32-slot exchange, `ADS1118._read`, over an abstract bus;
  - the pipelined batch read `ADS1118.read`. In this read, each command's
    reading arrives during the next exchange, and a trailing `INT_TEMP`
    exchange collects the last one.

  The bus is a function from the words clocked out so far (and the slot
  within the current exchange) to the level sampled on DOUT. Two concrete
  buses are modelled:
  - an idealised converter that converts on every command, against which `read` is proved to
    pair every reading with its own command;
  - an empty bus, against which `read` is proved to fail, with a bit sum
    of 0, exactly when some command has a set bit among bits 1..14. A
    command with none passes unnoticed (see Findings). Start-up itself
    fails on an empty bus, so this is a converter that falls silent after
    start-up.
- **Type K tables and interpolation** (`Bisection`, `Interpolation`,
  `TypeKTables`, `TypeK`). This covers:
  - `bisect`;
  - the two 165-entry decade tables;
  - `C_to_mV`, `mV_to_C` and `get_temp`.

  The interpolation is done in exact real arithmetic. Every property is
  proved for any strictly increasing voltage table with the same end
  points. `TypeKTables.MillivoltsTable` shows that the repository's
  `MILLIVOLTS` table is one.

`Wrappers` holds the `Result` and `Outcome` types used to model the
exceptions the source raises.

`C_to_mV`'s range check is closed (typek.py:33), so 1370 degrees C is
accepted and returns the last table entry without reading past it. `mV_to_C`
rejects that entry's voltage, 54.819 mV (typek.py:47), so the two
conversions are not inverse at the top edge (`TypeK.TopEdge`).

## Model

| member | source | states |
|---|---|---|
| BitCodec.IntToList | ADS1118.py:18-23 | `int_to_list(v, n)` has exactly n bits |
| BitCodec.IntToListBit | ADS1118.py:18-23 | bit k of `int_to_list(v, n)` is `(v >> (n-1-k)) & 1`, the expression the source evaluates, so the recursive model agrees with it for every value, negatives included |
| BitCodec.ListToInt | ADS1118.py:25-30 | the value of an n-bit list is below 2^n |
| BitCodec.ListToIntOfIntToList | ADS1118.py:18-30 | round trip: `list_to_int(int_to_list(v, n)) == v mod 2^n` |
| BitCodec.IntToListOfListToInt | ADS1118.py:18-30 | round trip the other way: every bit list is recovered from its value and length |
| BitCodec.ListToIntAppend | ADS1118.py:25-30 | the value of a concatenation is the high part shifted past the low part |
| BitCodec.ListToIntLeading | ADS1118.py:25-30 | the leading bit of an n-bit list weighs 2^(n-1) |
| BitCodec.ListToIntInjective | ADS1118.py:25-30 | equal-length lists with equal values are equal |
| BitCodec.DocExample | ADS1118.py:18-30 | the docstring example: 187 on 8 bits is 10111011, and back |
| BitCodec.BitSum | ADS1118.py:139 | the bit sum reported on a failed echo is 0 exactly when no bit is set |
| BitCodec.ListToBytes | ADS1118.py:34-35 | `list_to_bytearray` yields one byte per started group of 8 bits |
| BitCodec.BytesToList | ADS1118.py:37-39 | `bytearray_to_list` yields 8 bits per byte |
| BitCodec.BytesToInt | ADS1118.py:41-42 | the value of n bytes is below 2^(8n) |
| BitCodec.IntToBytes | ADS1118.py:44-45 | `int_to_bytearray` always yields one byte, the value mod 256, because the bit width defaults to 8 |
| BitCodec.BytesToListOfListToBytes | ADS1118.py:34-39 | grouping a whole number of bytes' worth of bits and expanding again is the identity |
| BitCodec.ListToBytesOfBytesToList | ADS1118.py:34-39 | expanding bytes and regrouping returns the same bytes |
| BitCodec.BytesToIntAppend | ADS1118.py:41-42 | byte strings are big-endian: appending a byte shifts the value by 8 bits |
| BitCodec.BytesToIntOfIntToBytes | ADS1118.py:41-45 | `bytearray_to_int(int_to_bytearray(v)) == v mod 256` |
| ConfigWord.Encode | ADS1118.py:69-89 | `encode` yields exactly 16 bits with the reserved bits fixed: bit 13 is 0 and bit 15 is 1 |
| ConfigWord.EncodeLayout | ADS1118.py:69-89 | where each argument lands: one bit per flag, each three-bit code mod 8 at bits 1..3, 4..6 and 8..10, `operation` at bit 14 |
| ConfigWord.Decode | ADS1118.py:91-101 | `decode` yields in-range codes, and its `operation` is bit 13 of the word |
| ConfigWord.DecodeEncode | ADS1118.py:69-101 | `decode(encode(c))` recovers every in-range field except `operation`, which comes back false |
| ConfigWord.DecodeDropsOperation | ADS1118.py:86-87 | for every argument, `decode(encode(...))` reports `operation` false |
| ConfigWord.DefaultDoesNotRoundTrip | ADS1118.py:69-101 | the default word does not survive `decode`: only `operation` differs |
| ConfigWord.EncodeDecode | ADS1118.py:69-101 | re-encoding a decoded word keeps bits 0..12, clears bit 13, moves the old bit 13 to bit 14 and sets bit 15 |
| ConfigWord.DecodeCorrected | ADS1118.py:91-101 | `decode` with `operation` read from bit 14 yields in-range codes and that bit |
| ConfigWord.DecodeCorrectedEncode | ADS1118.py:69-101 | the corrected decoder inverts `encode` on every in-range configuration |
| ConfigWord.EncodeDecodeCorrected | ADS1118.py:69-101 | `encode` inverts the corrected decoder on every 16-bit word whose reserved bits hold their fixed values |
| ConfigWord.IntTempWord | ADS1118.py:145 | `INT_TEMP` is the word 1000 0101 1011 1011, with the temperature-sensor bit 11 set |
| ConfigWord.Gain | ADS1118.py:47-56 | every gain code selects a positive LSB size |
| ConfigWord.GainAliasing | ADS1118.py:47-56 | codes 5, 6 and 7 select the same, smallest, step |
| ConfigWord.GainOrdering | ADS1118.py:47-56 | a larger gain code never selects a coarser step; from code 1 to 5 each code halves the step |
| Conversion.InvertValue | ADS1118.py:107-109 | flipping every bit of an n-bit word maps value v to 2^n - 1 - v |
| Conversion.Convert | ADS1118.py:103-111 | `convert` returns the two's-complement integer of the bits times the step: the unsigned value, less 2^n when the sign bit is set |
| Conversion.SignedValueRange | ADS1118.py:103-111 | that integer lies in [-2^(n-1), 2^(n-1) - 1] and is negative exactly when the sign bit is set |
| Conversion.SignedValueOfIntToList | ADS1118.py:103-111 | writing an in-range integer on n bits and decoding it as two's complement gives it back |
| Conversion.ConvertOfIntToList | ADS1118.py:103-111 | `convert` inverts `int_to_list` on in-range integers |
| Conversion.InterpretZero | ADS1118.py:113-128 | a voltage reading of clear bits is 0 V under every gain |
| BitCodec.ListToIntZero | ADS1118.py:25-30 | a list of clear bits has value 0 |
| Conversion.ConvertExamples | ADS1118.py:103-111 | 0101 converts to 5 and 1011 to -5 |
| Conversion.Interpret | ADS1118.py:113-128 | with bit 11 set, the first 14 data bits in steps of 0.03125 degrees C; otherwise all data bits in steps of `gains` for the code in bits 4..6 |
| Conversion.TemperatureRange | ADS1118.py:113-124 | a temperature reading lies in [-256, 255.96875] degrees C |
| Conversion.VoltageRange | ADS1118.py:113-128 | a voltage reading lies between -2^15 and 2^15 - 1 steps of its gain |
| Conversion.VoltageReading | ADS1118.py:113-128 | a 16-bit reading of `code` steps comes back as `code` steps of the configured gain |
| Conversion.TemperatureReading | ADS1118.py:113-124 | a temperature of `code` steps on the top 14 data bits comes back as `code` steps of 0.03125 degrees C, whatever the two bits below |
| Protocol.Verify | ADS1118.py:130-139 | `verify` passes exactly when bits 1..14 of the echo equal those of the command; a failure carries the echo's bit sum |
| Protocol.VerifyIgnoresOuterBits | ADS1118.py:130-139 | the single-shot bit 0 and the reserved bit 15 of either word never change the verdict |
| Protocol.VerifyEncoded | ADS1118.py:130-139 | for encoded configurations `verify` passes exactly when they agree on every field but the single-shot trigger |
| Protocol.VerifyCorrected | ADS1118.py:130-139 | `verify` extended to reject an echo with no set bit, the case the docstring (ADS1118.py:135) attributes to an absent converter: it passes exactly when the echo has a set bit and bits 1..14 equal those of the command; a failure carries the echo's bit sum |
| Protocol.Exchange | ADS1118.py:202-236 | `_read` clocks out the command twice and returns the 16 samples before the last 16 as data and the last 16 as the echo |
| Protocol.ExchangeAll | ADS1118.py:247-254 | one exchange per command, in order, each on a bus that has seen every earlier word |
| Protocol.FirstMismatch | ADS1118.py:258-260 | the first command whose echo fails the given echo check (`verify` for `read`): every earlier echo passes |
| Protocol.Pair | ADS1118.py:256-261 | the pairing loop, given an echo check (`verify` for `read`), succeeds exactly when every echo passes it, with one value per command, value i interpreting echo i with data i + 1; otherwise it fails with the first failing echo's bit sum |
| Protocol.Read | ADS1118.py:238-261 | `read` makes one exchange per command plus a trailing `INT_TEMP` exchange, and pairs them: success iff every echo verifies, value i from echo i and the data of exchange i + 1, and otherwise the fault of the first failing echo |
| Protocol.Start | ADS1118.py:186-187 | start-up succeeds exactly when the echo of one `INT_TEMP` exchange verifies, its data being dropped |
| Protocol.StartSilent | ADS1118.py:186-187 | with nothing on the bus, start-up raises with a bit sum of 0, since `INT_TEMP` has set bits among bits 1..14 |
| Protocol.StartIdeal | ADS1118.py:186-187 | against the idealised converter, start-up succeeds |
| Protocol.IdealRead | ADS1118.py:238-261 | against the idealised converter, `read` of 16-bit commands succeeds and value i is command i's own reading interpreted under command i |
| Protocol.ReadAnswered | ADS1118.py:238-261 | whenever exchange i echoes command i and exchange i + 1 carries `data[i]`, `read` succeeds with `interpret(command i, data[i])` |
| Protocol.IdealExchanges | ADS1118.py:202-254 | against the idealised converter, exchange i echoes command i and exchange i + 1 carries command i's reading |
| Protocol.PairMatched | ADS1118.py:256-261 | when every echo repeats its command the pairing loop succeeds |
| Protocol.SilentRead | ADS1118.py:238-261 | with nothing on the bus, `read` fails exactly when some command has a set bit among bits 1..14, and then reports a bit sum of 0 |
| Protocol.SilentReadPasses | ADS1118.py:238-261 | as written, `read` of a command whose bits 1..14 are clear returns `[0.0]` on an empty bus instead of raising |
| Protocol.ReadCorrected | ADS1118.py:238-261 | `read` with the corrected echo check: the same exchanges; success exactly when every echo passes the corrected check, and then the same values as `read`; otherwise the first failing echo's bit sum |
| Protocol.SilentReadCorrected | ADS1118.py:130-139 | with the corrected check, any non-empty batch on an empty bus raises with a bit sum of 0 |
| Protocol.IdealReadCorrected | ADS1118.py:238-261 | against the idealised converter, the corrected `read` of commands with bit 15 set, as `encode` sets it, succeeds with what `read` returns |
| Protocol.SilentEchoes | ADS1118.py:202-236 | with nothing on the bus every echo has bit sum 0 |
| Bisection.Bisect | typek.py:37 | `bisect` returns the index splitting the sorted list at x: entries before it are at most x, entries from it on are above x |
| Bisection.BisectCounts | typek.py:37 | `bisect` equals the reference count of entries at most x |
| Bisection.SplitsUnique | typek.py:37 | at most one index splits a list at a value |
| Bisection.BisectMonotone | typek.py:37 | `bisect` is monotone in the value searched for |
| Bisection.BisectSegment | typek.py:37 | for x in `[s[i], s[i+1])` of a strictly increasing list, `bisect` returns i + 1 |
| Bisection.AdjacentIncreasing | typek.py:8-25 | each entry below the next makes a list strictly increasing |
| Interpolation.InterpolateBetween | typek.py:40-43 | linear interpolation on a rising segment stays in `[y1, y2)` for x in `[x1, x2)` |
| Interpolation.InterpolateInverse | typek.py:31-58 | interpolating back along the same segment with the axes swapped returns the argument |
| Interpolation.InterpolateMonotone | typek.py:40-43 | interpolation on a rising segment is strictly increasing |
| Interpolation.RiseOverTenInterpolates | typek.py:41-43 | `(y2 - y1) / 10 * x + y1`, with x the offset into a 10-degree segment, is the linear interpolation |
| Interpolation.TenOverRunInterpolates | typek.py:53-58 | `10 / (x2 - x1) * x + y1`, with x the offset into the segment, is the linear interpolation onto a 10-degree rise |
| Interpolation.Mod10 | typek.py:38 | the exact remainder of `C % 10` under floored division lies in [0, 10) |
| Interpolation.Mod10Of | typek.py:38 | for a in `[10k, 10k + 10)`, `a % 10` is `a - 10k` |
| TypeKTables.DegreesTable | typek.py:8 | `DEGREES_C` has 165 entries, -270 + 10i at index i, from -270 to 1370 |
| TypeKTables.DegreesIncreasing | typek.py:8 | `DEGREES_C` is strictly increasing |
| TypeKTables.MillivoltsTable | typek.py:9-25 | `MILLIVOLTS` has 165 entries, strictly increasing, from -6.458 to 54.819, with 0 mV at 0 degrees C and 0.397 mV at 10 degrees C |
| TypeK.CelsiusToMillivolts | typek.py:31-43 | `C_to_mV` raises exactly when C is outside the closed interval [-270, 1370], carrying C |
| TypeK.MillivoltsToCelsius | typek.py:45-58 | `mV_to_C` raises exactly when mV is outside the half-open interval [-6.458, 54.819), carrying mV |
| TypeK.GetTemp | typek.py:60-70 | a cold junction outside [-270, 1370] raises the temperature range error |
| TypeK.CelsiusSegmentOf | typek.py:35-37 | below 1370 the `bisect` index is i + 1 with C in `[DEGREES_C[i], DEGREES_C[i+1])` and i < 164 |
| TypeK.MillivoltsSegmentOf | typek.py:49-52 | in range the `bisect` index is i + 1 with mV in `[MILLIVOLTS[i], MILLIVOLTS[i+1])` and i < 164 |
| TypeK.CelsiusSegment | typek.py:31-43 | within segment i, `C_to_mV` is the linear interpolation between the segment's two table points |
| TypeK.MillivoltsSegment | typek.py:45-58 | within segment i, `mV_to_C` is the linear interpolation between the segment's two table points |
| TypeK.CelsiusBracket | typek.py:35-43 | within segment i the result lies in `[MILLIVOLTS[i], MILLIVOLTS[i+1])`, equal to the lower entry exactly at the breakpoint |
| TypeK.MillivoltsBracket | typek.py:49-58 | within segment i the result lies in `[DEGREES_C[i], DEGREES_C[i+1])`, equal to the lower entry exactly when mV is a table entry |
| TypeK.CelsiusTop | typek.py:33-39 | at the inclusive upper bound 1370 `C_to_mV` returns the last entry, 54.819 mV |
| TypeK.CelsiusBreakpoint | typek.py:35-39 | at every breakpoint `DEGREES_C[i]`, `C_to_mV` returns `MILLIVOLTS[i]` exactly |
| TypeK.MillivoltsBreakpoint | typek.py:49-58 | at every table entry below the top, `mV_to_C` returns `DEGREES_C[i]` exactly |
| TypeK.CelsiusRange | typek.py:31-43 | every result of `C_to_mV` lies in [-6.458, 54.819] |
| TypeK.MillivoltsRange | typek.py:45-58 | every result of `mV_to_C` lies in [-270, 1370) |
| TypeK.CelsiusRoundTrip | typek.py:31-58 | for C in [-270, 1370), `mV_to_C(C_to_mV(C)) == C` |
| TypeK.MillivoltsRoundTrip | typek.py:31-58 | for mV in [-6.458, 54.819), `C_to_mV(mV_to_C(mV)) == mV` |
| TypeK.CelsiusMonotone | typek.py:31-43 | `C_to_mV` is strictly increasing on [-270, 1370] |
| TypeK.MillivoltsMonotone | typek.py:45-58 | `mV_to_C` is strictly increasing on [-6.458, 54.819) |
| TypeK.Compensation | typek.py:60-70 | with a cold junction at cj, the voltage of t relative to cj converts back to t |
| TypeK.GetTempAtColdJunction | typek.py:60-70 | a thermocouple voltage of 0 reads the cold-junction temperature |
| TypeK.TableCompensation | typek.py:60-70 | between two breakpoints, the table's voltage difference converts exactly to the breakpoint temperature |
| TypeK.GetTempMonotone | typek.py:60-70 | for a fixed cold junction, a larger in-range voltage reads a strictly higher temperature |
| TypeK.GetTempErrors | typek.py:60-70 | `get_temp` raises exactly when the cold junction is out of range or the voltage sum is outside [-6.458, 54.819); with the junction in range the error carries the sum |
| TypeK.TopEdge | typek.py:60-70 | 1370 converts to 54.819 mV, but 54.819 mV is rejected, so `get_temp(1370, 0)` raises |
| TypeK.DecadeExamples | typek.py:35-39 | on the repository's table, 0 degrees C reads exactly 0.000 mV and 10 degrees C exactly 0.397 mV, and 0.397 mV reads back as 10 degrees C |

## Left out

- GPIO is not modelled. This covers pin set-up in `__init__`, chip-select
  toggling and `wait`'s busy poll on DOUT. Instead, the bus is an abstract
  function from the words clocked out to the level sampled at each slot.
- Timing is not modelled: `time.sleep`, `pause`, the `sleep_times` table
  and the 30 ms reset hold. After each command the driver itself waits for
  the conversion to finish (ADS1118.py:155-157, 250-253). `read` also
  assumes that its caller leaves enough time between calls for the
  converter to power down, 7 ms by default (ADS1118.py:242-246). Both
  effects on what DOUT carries are folded into the abstract `Bus`.
  `Protocol.IdealBus` assumes every conversion has finished by the next
  exchange, and that each call starts with the converter powered down.
- Protocol.IdealBus: it treats every command as starting a conversion. In
  single-shot mode a command with bit 0 (`single_shot`) clear starts none
  (ADS1118.py:70, 73), and `encode()`'s default is such a command. A real
  converter would then shift out a stale result. So `IdealRead`'s "value i
  is command i's own reading" holds for this idealised converter only.
  Modelling the power-down state is left out.
- Floating-point rounding is not modelled. The `gains` steps, `convert`
  and the type K interpolation are exact `real`s. As a result, the round
  trips and breakpoint identities are exact here, where the source's
  binary floating point is only close.
- The text of exception messages is not modelled. Errors carry only the
  data they format: the bit sum, or the rejected argument.
- Protocol.Exchange, Protocol.Read: commands shorter than 16 bits are
  excluded by the requires. The assertion the source has commented out
  states this requirement. With a shorter command, the source's slices
  would return fewer than 32 samples.
- `read`'s choice between `pause` and `wait` between exchanges is not
  modelled. `wait` spins on DOUT with no time-out (ADS1118.py:190-193) and
  can hang (ADS1118.py:188); that non-termination is not modelled.
- TypeK.GetTemp: the function's own contract states only the cold-junction
  error. The full if-and-only-if for its errors is stated by
  TypeK.GetTempErrors, and its values by TypeK.Compensation and
  TypeK.GetTempMonotone.
- TypeK.CelsiusToMillivolts, TypeK.MillivoltsToCelsius, TypeK.GetTemp take
  the voltage table as a parameter rather than reading `MILLIVOLTS`. The
  properties hold for every table satisfying `VoltageTable`, which
  `MILLIVOLTS` does (`TypeKTables.MillivoltsTable`).

## Findings

| source | as written | input that shows it | evidently intended | confidence | as-written member | corrected member |
|---|---|---|---|---|---|---|
| ADS1118.py:101 | `decode` reads `operation` from bit 13, which `encode` (ADS1118.py:86-87) fills with the reserved 0 | `decode(encode())` with every default: `operation` is True in, False out | read `operation` from bit 14, where `encode` writes it | high, not executed | ConfigWord.DefaultDoesNotRoundTrip | ConfigWord.DecodeCorrectedEncode |
| ADS1118.py:130-139 | `verify` compares only bits 1..14, so an empty bus goes unnoticed whenever the command's bits 1..14 are all clear, although the docstring (ADS1118.py:135) attributes a zero bit sum to an absent converter | `read(encode(gain=0, single_shot_mode=False, data_rate=0, pullup=False, operation=False))` with the converter gone silent after a successful start-up returns `[0.0]` (with none attached at all, `__init__` already raises, ADS1118.py:186-187) | an echo with no set bit raises `ConnectionError` with a bit sum of 0 | medium, not executed | Protocol.SilentReadPasses | Protocol.SilentReadCorrected |

=== FILE: bisection.dfy ===
/** `bisect.bisect` (that is, `bisect_right`) of the Python standard
    library, which the thermocouple tables use to find the segment holding a
    value. */
module Bisection {

  /** Non-decreasing: the order `bisect` expects of its list. */
  ghost predicate Sorted(s: seq<real>) {
    forall i, j :: 0 <= i <= j < |s| ==> s[i] <= s[j]
  }

  ghost predicate StrictlyIncreasing(s: seq<real>) {
    forall i, j :: 0 <= i < j < |s| ==> s[i] < s[j]
  }

  /** `idx` splits `s` at `x`: every element before it is at most `x`,
      every element from it on is above `x`. */
  ghost predicate Splits(s: seq<real>, x: real, idx: int) {
    0 <= idx <= |s|
    && (forall i :: 0 <= i < idx ==> s[i] <= x)
    && (forall i :: idx <= i < |s| ==> x < s[i])
  }

  /** The search loop of `bisect_right` on `s[lo..hi]`: compare with the
      middle element and keep the right half unless `x` is below it. */
  function BisectRange(s: seq<real>, x: real, lo: nat, hi: nat): (idx: nat)
    requires Sorted(s) && lo <= hi <= |s|
    requires forall i :: 0 <= i < lo ==> s[i] <= x
    requires forall i :: hi <= i < |s| ==> x < s[i]
    ensures lo <= idx <= hi
    ensures Splits(s, x, idx)
    decreases hi - lo
  {
    if lo < hi then
      var mid := (lo + hi) / 2;
      if x < s[mid] then BisectRange(s, x, lo, mid) else BisectRange(s, x, mid + 1, hi)
    else
      lo
  }

  /** `bisect(s, x)`: the insertion point of `x` to the right of any equal elements. */
  function Bisect(s: seq<real>, x: real): (idx: nat)
    requires Sorted(s)
    ensures Splits(s, x, idx)
  {
    BisectRange(s, x, 0, |s|)
  }

  /** A reference definition: the number of elements at most `x`. */
  function CountAtMost(s: seq<real>, x: real): (n: nat)
    ensures n <= |s|
  {
    if |s| == 0 then 0
    else CountAtMost(s[..|s| - 1], x) + (if s[|s| - 1] <= x then 1 else 0)
  }

  /** At most one index splits a list at a given value. */
  lemma SplitsUnique(s: seq<real>, x: real, a: int, b: int)
    requires Splits(s, x, a) && Splits(s, x, b)
    ensures a == b
  {
    SplitsCount(s, x, a);
    SplitsCount(s, x, b);
  }

  /** An index that splits the list counts the elements at most `x`. */
  lemma {:induction false} SplitsCount(s: seq<real>, x: real, idx: int)
    requires Splits(s, x, idx)
    ensures CountAtMost(s, x) == idx
    decreases |s|
  {
    if |s| > 0 {
      var n := |s|;
      if idx == n {
        SplitsCount(s[..n - 1], x, n - 1);
      } else {
        SplitsCount(s[..n - 1], x, idx);
      }
    }
  }

  /** On a sorted list `bisect` returns the number of elements at most `x`. */
  lemma BisectCounts(s: seq<real>, x: real)
    requires Sorted(s)
    ensures Bisect(s, x) == CountAtMost(s, x)
  {
    SplitsCount(s, x, Bisect(s, x));
  }

  /** `bisect` is monotone in the value searched for. */
  lemma BisectMonotone(s: seq<real>, x: real, y: real)
    requires Sorted(s) && x <= y
    ensures Bisect(s, x) <= Bisect(s, y)
  {
    BisectCounts(s, x);
    BisectCounts(s, y);
    CountMonotone(s, x, y);
  }

  /** More elements are at most a larger value. */
  lemma {:induction false} CountMonotone(s: seq<real>, x: real, y: real)
    requires x <= y
    ensures CountAtMost(s, x) <= CountAtMost(s, y)
    decreases |s|
  {
    if |s| > 0 {
      CountMonotone(s[..|s| - 1], x, y);
    }
  }

  /** When `x` lies in `[s[i], s[i + 1])` of a strictly increasing list,
      `bisect` returns `i + 1`. */
  lemma BisectSegment(s: seq<real>, x: real, i: nat)
    requires StrictlyIncreasing(s) && i + 1 < |s|
    requires s[i] <= x < s[i + 1]
    ensures (StrictlyIncreasingSorted(s); Bisect(s, x) == i + 1)
  {
    StrictlyIncreasingSorted(s);
    assert Splits(s, x, i + 1);
    SplitsUnique(s, x, i + 1, Bisect(s, x));
  }

  lemma StrictlyIncreasingSorted(s: seq<real>)
    requires StrictlyIncreasing(s)
    ensures Sorted(s)
  {
  }

  /** Each element lies below the next. */
  ghost predicate AdjacentUp(s: seq<real>) {
    forall i :: 1 <= i < |s| ==> s[i - 1] < s[i]
  }

  /** Each element below the next suffices for a strictly increasing list. */
  lemma {:induction false} AdjacentIncreasing(s: seq<real>)
    requires AdjacentUp(s)
    ensures StrictlyIncreasing(s)
    decreases |s|
  {
    if |s| > 1 {
      var n := |s|;
      AdjacentIncreasing(s[..n - 1]);
      forall i, j | 0 <= i < j < n
        ensures s[i] < s[j]
      {
        if j == n - 1 && i < n - 2 {
          assert s[i] < s[n - 2];
        }
      }
    }
  }
}

=== FILE: bit_codec.dfy ===
/** Big-endian bit lists and the integers and bytes they stand for
    (`int_to_list`, `list_to_int` and the bytearray helpers of ADS1118.py). */
module BitCodec {

  /** One line level or one bit of a protocol word. The driver mixes Python
      ints and bools in its bit lists; both are modelled as 0 or 1. */
  type Bit = b: int | 0 <= b <= 1

  /** One element of a Python `bytearray`. */
  type Byte = b: int | 0 <= b < 256

  function Pow2(n: nat): (p: nat)
    ensures p >= 1
  {
    if n == 0 then 1 else 2 * Pow2(n - 1)
  }

  lemma {:induction false} Pow2Add(m: nat, n: nat)
    ensures Pow2(m + n) == Pow2(m) * Pow2(n)
    decreases n
  {
    if n > 0 {
      Pow2Add(m, n - 1);
      assert Pow2(m + n) == 2 * Pow2(m + n - 1);
    }
  }

  lemma {:induction false} Pow2Monotone(m: nat, n: nat)
    requires m <= n
    ensures Pow2(m) <= Pow2(n)
    decreases n - m
  {
    if m < n {
      Pow2Monotone(m, n - 1);
    }
  }

  /** `int_to_list(value, width)`: the low `width` bits of `value`, most
      significant first. Python's `>>` floors, so a negative value yields the
      bits of `value mod 2^width`; Dafny's `/` and `%` by a positive divisor
      floor as well. */
  function IntToList(value: int, width: nat): (bits: seq<Bit>)
    ensures |bits| == width
    decreases width
  {
    if width == 0 then [] else IntToList(value / 2, width - 1) + [value % 2]
  }

  /** `list_to_int`: the unsigned big-endian value of a bit list. */
  function ListToInt(bits: seq<Bit>): (v: nat)
    ensures v < Pow2(|bits|)
  {
    if |bits| == 0 then 0 else 2 * ListToInt(bits[..|bits| - 1]) + bits[|bits| - 1]
  }

  /** Number of set bits (the `sum(config)` the driver reports on a failed echo). */
  function BitSum(bits: seq<Bit>): (n: nat)
    ensures n <= |bits|
    ensures n == 0 <==> forall k :: 0 <= k < |bits| ==> bits[k] == 0
  {
    if |bits| == 0 then 0 else bits[0] + BitSum(bits[1..])
  }

  /** Floor division by a power of two can be done one halving at a time. */
  lemma DivPow2Step(v: int, m: nat)
    ensures (v / 2) / Pow2(m) == v / Pow2(m + 1)
    ensures 2 * ((v / 2) % Pow2(m)) + v % 2 == v % Pow2(m + 1)
  {
    var p := Pow2(m);
    var q := v / 2;
    var a := q / p;
    var b := q % p;
    assert Pow2(m + 1) == 2 * p;
    assert v == 2 * p * a + (2 * b + v % 2);
    assert 0 <= 2 * b + v % 2 < 2 * p;
    DivModUnique(v, 2 * p, a, 2 * b + v % 2);
  }

  lemma DivModUnique(v: int, d: int, q: int, r: int)
    requires d > 0 && 0 <= r < d && v == d * q + r
    ensures v / d == q && v % d == r
  {
    var q' := v / d;
    assert v == d * q' + v % d;
    if q' > q {
      MulAtLeast(d, q' - q);
    } else if q' < q {
      MulAtLeast(d, q - q');
    }
  }

  lemma MulAtLeast(d: int, k: int)
    requires d > 0 && k >= 1
    ensures d * k >= d
  {
    assert d * k == d * (k - 1) + d;
  }

  /** The source computes bit k of `int_to_list(value, width)` as
      `value >> (width - 1 - k) & 1`; the recursive definition agrees. */
  lemma {:induction false} IntToListBit(value: int, width: nat, k: nat)
    requires k < width
    ensures IntToList(value, width)[k] == (value / Pow2(width - 1 - k)) % 2
    decreases width
  {
    if k == width - 1 {
      assert Pow2(0) == 1;
    } else {
      IntToListBit(value / 2, width - 1, k);
      DivPow2Step(value, width - 2 - k);
    }
  }

  /** Round trip: `list_to_int(int_to_list(v, n)) == v mod 2^n`. */
  lemma {:induction false} ListToIntOfIntToList(value: int, width: nat)
    ensures ListToInt(IntToList(value, width)) == value % Pow2(width)
    decreases width
  {
    if width > 0 {
      var bits := IntToList(value, width);
      assert bits[..width - 1] == IntToList(value / 2, width - 1);
      ListToIntOfIntToList(value / 2, width - 1);
      DivPow2Step(value, width - 1);
    }
  }

  /** Round trip the other way: a bit list is recovered from its value and length. */
  lemma {:induction false} IntToListOfListToInt(bits: seq<Bit>)
    ensures IntToList(ListToInt(bits), |bits|) == bits
    decreases |bits|
  {
    if |bits| > 0 {
      var n := |bits|;
      var prefix := bits[..n - 1];
      var v := ListToInt(bits);
      DivModUnique(v, 2, ListToInt(prefix), bits[n - 1]);
      IntToListOfListToInt(prefix);
      assert bits == prefix + [bits[n - 1]];
    }
  }

  /** The value of a concatenation: the high part shifted past the low part. */
  lemma {:induction false} ListToIntAppend(high: seq<Bit>, low: seq<Bit>)
    ensures ListToInt(high + low) == ListToInt(high) * Pow2(|low|) + ListToInt(low)
    decreases |low|
  {
    if |low| > 0 {
      var n := |low|;
      var s := high + low;
      assert s[..|s| - 1] == high + low[..n - 1];
      assert s[|s| - 1] == low[n - 1];
      ListToIntAppend(high, low[..n - 1]);
      DoubleProduct(ListToInt(high), Pow2(n - 1));
    } else {
      assert high + low == high;
    }
  }

  lemma DoubleProduct(h: int, p: int)
    ensures h * (2 * p) == 2 * (h * p)
  {
  }

  /** The leading bit carries weight `2^(n-1)`. */
  lemma ListToIntLeading(bits: seq<Bit>)
    requires |bits| >= 1
    ensures ListToInt(bits) == bits[0] * Pow2(|bits| - 1) + ListToInt(bits[1..])
  {
    assert bits == [bits[0]] + bits[1..];
    ListToIntAppend([bits[0]], bits[1..]);
    assert ListToInt([bits[0]]) == bits[0] by {
      assert [bits[0]][..0] == [];
    }
  }

  /** A list of clear bits has value 0. */
  lemma {:induction false} ListToIntZero(bits: seq<Bit>)
    requires forall k :: 0 <= k < |bits| ==> bits[k] == 0
    ensures ListToInt(bits) == 0
    decreases |bits|
  {
    if |bits| > 0 {
      ListToIntZero(bits[..|bits| - 1]);
    }
  }

  /** Equal-length bit lists with equal values are equal. */
  lemma ListToIntInjective(a: seq<Bit>, b: seq<Bit>)
    requires |a| == |b| && ListToInt(a) == ListToInt(b)
    ensures a == b
  {
    IntToListOfListToInt(a);
    IntToListOfListToInt(b);
  }

  /** The worked example in the docstrings of `int_to_list` and `list_to_int`. */
  lemma DocExample()
    ensures IntToList(187, 8) == [1, 0, 1, 1, 1, 0, 1, 1]
    ensures ListToInt([1, 0, 1, 1, 1, 0, 1, 1]) == 187
  {
    assert Pow2(8) == 256;
    ListToIntOfIntToList(187, 8);
  }

  /** `list_to_bytearray`: every successive group of eight bits, the last
      group possibly shorter, read as one unsigned byte. */
  function ListToBytes(bits: seq<Bit>): (bytes: seq<Byte>)
    ensures |bytes| == (|bits| + 7) / 8
    decreases |bits|
  {
    if |bits| == 0 then []
    else
      var chunk := if |bits| < 8 then bits else bits[..8];
      Pow2Monotone(|chunk|, 8);
      [ListToInt(chunk) as Byte] + ListToBytes(bits[|chunk|..])
  }

  /** `bytearray_to_list`: the eight-bit expansion of every byte, concatenated. */
  function BytesToList(bytes: seq<Byte>): (bits: seq<Bit>)
    ensures |bits| == 8 * |bytes|
  {
    if |bytes| == 0 then [] else IntToList(bytes[0], 8) + BytesToList(bytes[1..])
  }

  /** `bytearray_to_int`: the big-endian value of a byte string. */
  function BytesToInt(bytes: seq<Byte>): (v: nat)
    ensures v < Pow2(8 * |bytes|)
  {
    ListToInt(BytesToList(bytes))
  }

  /** `int_to_bytearray`: `int_to_list` defaults to eight bits, so the result
      is always one byte holding the value mod 256. */
  function IntToBytes(value: int): (bytes: seq<Byte>)
    ensures bytes == [value % 256]
  {
    var bits := IntToList(value, 8);
    ListToIntOfIntToList(value, 8);
    assert bits[..8] == bits && bits[8..] == [];
    ListToBytes(bits)
  }

  /** Grouping a whole number of bytes' worth of bits and expanding again is the identity. */
  lemma {:induction false} BytesToListOfListToBytes(bits: seq<Bit>)
    requires |bits| % 8 == 0
    ensures BytesToList(ListToBytes(bits)) == bits
    decreases |bits|
  {
    if |bits| > 0 {
      MultipleOfEight(|bits|);
      var chunk := bits[..8];
      ListToBytesStep(bits);
      IntToListOfListToInt(chunk);
      BytesToListOfListToBytes(bits[8..]);
      assert bits == chunk + bits[8..];
    }
  }

  /** A positive multiple of eight leaves a multiple of eight when eight is taken off. */
  lemma MultipleOfEight(n: nat)
    requires n % 8 == 0 && n > 0
    ensures n >= 8 && (n - 8) % 8 == 0
  {
    DivModUnique(n - 8, 8, n / 8 - 1, 0);
  }

  /** Expanding bytes and regrouping them returns the same bytes. */
  lemma {:induction false} ListToBytesOfBytesToList(bytes: seq<Byte>)
    ensures ListToBytes(BytesToList(bytes)) == bytes
    decreases |bytes|
  {
    if |bytes| > 0 {
      var bits := BytesToList(bytes);
      var head := IntToList(bytes[0], 8);
      assert bits[..8] == head;
      assert bits[8..] == BytesToList(bytes[1..]);
      ByteBits(bytes[0]);
      ListToBytesStep(bits);
      ListToBytesOfBytesToList(bytes[1..]);
      assert bytes == [bytes[0]] + bytes[1..];
    }
  }

  /** The eight bits of a byte have the byte's value. */
  lemma ByteBits(b: Byte)
    ensures ListToInt(IntToList(b, 8)) == b
  {
    ListToIntOfIntToList(b, 8);
    assert Pow2(8) == 256;
    DivModUnique(b, 256, 0, b);
  }

  lemma ListToBytesStep(bits: seq<Bit>)
    requires |bits| >= 8
    ensures ListToBytes(bits) == [ListToInt(bits[..8]) as Byte] + ListToBytes(bits[8..])
  {
  }

  /** Byte strings are big-endian: appending a byte shifts the value by eight bits. */
  lemma BytesToIntAppend(bytes: seq<Byte>, last: Byte)
    ensures BytesToInt(bytes + [last]) == 256 * BytesToInt(bytes) + last
  {
    var high := BytesToList(bytes);
    var low := IntToList(last, 8);
    BytesToListAppend(bytes, last);
    ListToIntAppend(high, low);
    ByteBits(last);
    assert Pow2(|low|) == 256 by {
      assert Pow2(8) == 256;
    }
    ShiftByte(ListToInt(high + low), ListToInt(high), Pow2(|low|), ListToInt(low));
  }

  lemma ShiftByte(v: int, high: int, p: int, low: int)
    requires p == 256 && v == high * p + low
    ensures v == 256 * high + low
  {
  }

  lemma {:induction false} BytesToListAppend(bytes: seq<Byte>, last: Byte)
    ensures BytesToList(bytes + [last]) == BytesToList(bytes) + IntToList(last, 8)
    decreases |bytes|
  {
    if |bytes| == 0 {
      assert bytes + [last] == [last];
    } else {
      assert (bytes + [last])[1..] == bytes[1..] + [last];
      BytesToListAppend(bytes[1..], last);
    }
  }

  /** `bytearray_to_int(int_to_bytearray(v)) == v mod 256`. */
  lemma BytesToIntOfIntToBytes(value: int)
    ensures BytesToInt(IntToBytes(value)) == value % 256
  {
    var b: Byte := value % 256;
    assert IntToBytes(value) == [b];
    assert BytesToList([b]) == IntToList(b, 8) + BytesToList([]);
    assert BytesToList([b]) == IntToList(b, 8);
    ByteBits(b);
  }
}

=== FILE: config_word.dfy ===
/** The ADS1118's 16-bit configuration word: field layout (`encode`,
    `decode`), the least-significant-bit size selected by the gain code
    (`gains`) and the internal-temperature command `INT_TEMP`. */
module ConfigWord {
  import opened BitCodec

  /** The keyword arguments of `encode`. The three-bit fields are plain
      integers: `encode` keeps only their low three bits. */
  datatype Config = Config(
    singleShot: bool,      // start a conversion if the converter is powered down
    multiplex: int,        // input pair, codes 0..7
    gain: int,             // full-scale range, codes 0..7
    singleShotMode: bool,  // power down after each conversion
    dataRate: int,         // samples per second, codes 0..7
    tempSensor: bool,      // read the internal temperature sensor
    pullup: bool,          // enable the DIN pull-up resistor
    operation: bool)       // when false the word is not written to the register

  /** The default arguments of `encode`. */
  const DEFAULT: Config := Config(false, 0, 2, true, 4, false, true, true)

  /** Every three-bit field holds a code that fits in three bits. */
  predicate InRange(c: Config) {
    0 <= c.multiplex < 8 && 0 <= c.gain < 8 && 0 <= c.dataRate < 8
  }

  function FromBool(b: bool): Bit {
    if b then 1 else 0
  }

  /** `encode`: single_shot, multiplex(3), gain(3), single_shot_mode,
      data_rate(3), temp_sensor, pullup, reserved 0, operation, reserved 1. */
  function Encode(c: Config): (word: seq<Bit>)
    ensures |word| == 16
    ensures word[13] == 0 && word[15] == 1
  {
    [FromBool(c.singleShot)] + IntToList(c.multiplex, 3) + IntToList(c.gain, 3)
    + [FromBool(c.singleShotMode)] + IntToList(c.dataRate, 3)
    + [FromBool(c.tempSensor), FromBool(c.pullup), 0, FromBool(c.operation), 1]
  }

  /** Where each field lands in the word `encode` builds: one bit per flag,
      the low three bits of each code, big-endian. */
  lemma EncodeLayout(c: Config)
    ensures Encode(c)[0] == 1 <==> c.singleShot
    ensures ListToInt(Encode(c)[1..4]) == c.multiplex % 8
    ensures ListToInt(Encode(c)[4..7]) == c.gain % 8
    ensures Encode(c)[7] == 1 <==> c.singleShotMode
    ensures ListToInt(Encode(c)[8..11]) == c.dataRate % 8
    ensures Encode(c)[11] == 1 <==> c.tempSensor
    ensures Encode(c)[12] == 1 <==> c.pullup
    ensures Encode(c)[14] == 1 <==> c.operation
  {
    var word := Encode(c);
    var m := IntToList(c.multiplex, 3);
    var g := IntToList(c.gain, 3);
    var d := IntToList(c.dataRate, 3);
    assert word == [FromBool(c.singleShot)] + m + g + [FromBool(c.singleShotMode)] + d
      + [FromBool(c.tempSensor), FromBool(c.pullup), 0, FromBool(c.operation), 1];
    assert word[1..4] == m;
    assert word[4..7] == g;
    assert word[8..11] == d;
    assert word[11] == FromBool(c.tempSensor);
    assert word[12] == FromBool(c.pullup);
    assert word[14] == FromBool(c.operation);
    FieldValue(c.multiplex);
    FieldValue(c.gain);
    FieldValue(c.dataRate);
  }

  /** A code written on three bits reads back modulo 8. */
  lemma FieldValue(code: int)
    ensures ListToInt(IntToList(code, 3)) == code % 8
  {
    ListToIntOfIntToList(code, 3);
    assert Pow2(3) == 8;
  }

  /** `decode`, as written: it reads `operation` from bit 13, which `encode`
      fills with the reserved 0, instead of bit 14. */
  function Decode(word: seq<Bit>): (c: Config)
    requires |word| >= 14
    ensures InRange(c)
    ensures c.operation <==> word[13] == 1
  {
    assert Pow2(3) == 8;
    Config(
      word[0] == 1,
      ListToInt(word[1..4]),
      ListToInt(word[4..7]),
      word[7] == 1,
      ListToInt(word[8..11]),
      word[11] == 1,
      word[12] == 1,
      word[13] == 1)
  }

  /** `decode` with `operation` read from bit 14, where `encode` puts it. */
  function DecodeCorrected(word: seq<Bit>): (c: Config)
    requires |word| >= 15
    ensures InRange(c)
    ensures c.operation <==> word[14] == 1
  {
    Decode(word).(operation := word[14] == 1)
  }

  /** `decode(encode(c))` recovers every field of an in-range `c` except
      `operation`, which always comes back false. */
  lemma DecodeEncode(c: Config)
    requires InRange(c)
    ensures Decode(Encode(c)) == c.(operation := false)
  {
    EncodeLayout(c);
    DivModUnique(c.multiplex, 8, 0, c.multiplex);
    DivModUnique(c.gain, 8, 0, c.gain);
    DivModUnique(c.dataRate, 8, 0, c.dataRate);
    var d := Decode(Encode(c));
    assert d.multiplex == c.multiplex && d.gain == c.gain && d.dataRate == c.dataRate;
    assert d.singleShot == c.singleShot && d.singleShotMode == c.singleShotMode;
    assert d.tempSensor == c.tempSensor && d.pullup == c.pullup && !d.operation;
  }

  /** Whatever the fields, `decode(encode(...))` reports `operation` false. */
  lemma DecodeDropsOperation(c: Config)
    ensures !Decode(Encode(c)).operation
  {
  }

  /** The defaults of `encode` do not survive `decode`: the default word has
      `operation` set. */
  lemma DefaultDoesNotRoundTrip()
    ensures Decode(Encode(DEFAULT)) != DEFAULT
    ensures Decode(Encode(DEFAULT)) == DEFAULT.(operation := false)
  {
    DecodeEncode(DEFAULT);
  }

  /** Re-encoding a decoded 16-bit word keeps bits 0..12, clears bit 13,
      moves the old bit 13 into bit 14 and sets bit 15. */
  lemma EncodeDecode(word: seq<Bit>)
    requires |word| == 16
    ensures Encode(Decode(word)) == word[..13] + [0, word[13], 1]
  {
    var c := Decode(word);
    IntToListOfListToInt(word[1..4]);
    IntToListOfListToInt(word[4..7]);
    IntToListOfListToInt(word[8..11]);
    EncodeBits(c);
    var m := IntToList(c.multiplex, 3);
    var g := IntToList(c.gain, 3);
    var d := IntToList(c.dataRate, 3);
    assert m[0] == word[1] && m[1] == word[2] && m[2] == word[3];
    assert g[0] == word[4] && g[1] == word[5] && g[2] == word[6];
    assert d[0] == word[8] && d[1] == word[9] && d[2] == word[10];
    var expected := word[..13] + [0, word[13], 1];
    forall k | 0 <= k < 16
      ensures Encode(c)[k] == expected[k]
    {
    }
  }

  /** The word `encode` builds, bit by bit. */
  lemma EncodeBits(c: Config)
    ensures var w := Encode(c);
      var m := IntToList(c.multiplex, 3);
      var g := IntToList(c.gain, 3);
      var d := IntToList(c.dataRate, 3);
      w[0] == FromBool(c.singleShot) && w[1] == m[0] && w[2] == m[1] && w[3] == m[2]
      && w[4] == g[0] && w[5] == g[1] && w[6] == g[2] && w[7] == FromBool(c.singleShotMode)
      && w[8] == d[0] && w[9] == d[1] && w[10] == d[2] && w[11] == FromBool(c.tempSensor)
      && w[12] == FromBool(c.pullup) && w[13] == 0 && w[14] == FromBool(c.operation) && w[15] == 1
  {
  }

  /** The corrected decoder inverts `encode` on every in-range configuration. */
  lemma DecodeCorrectedEncode(c: Config)
    requires InRange(c)
    ensures DecodeCorrected(Encode(c)) == c
  {
    DecodeEncode(c);
  }

  /** ... and `encode` inverts the corrected decoder on every 16-bit word
      whose reserved bits hold their fixed values. */
  lemma EncodeDecodeCorrected(word: seq<Bit>)
    requires |word| == 16 && word[13] == 0 && word[15] == 1
    ensures Encode(DecodeCorrected(word)) == word
  {
    EncodeDecode(word);
    assert Encode(DecodeCorrected(word)) == Encode(Decode(word))[14 := word[14]];
  }

  /** `INT_TEMP`: a single-shot read of the internal temperature sensor at
      data-rate code 5, every other field at its default. */
  const INT_TEMP: seq<Bit> := Encode(DEFAULT.(singleShot := true, tempSensor := true, dataRate := 5))

  lemma IntTempWord()
    ensures INT_TEMP == [1, 0, 0, 0, 0, 1, 0, 1, 1, 0, 1, 1, 1, 0, 1, 1]
    ensures INT_TEMP[11] == 1
  {
    IntTempCodes();
    assert INT_TEMP == Encode(Config(true, 0, 2, true, 5, true, true, true));
    assert INT_TEMP == [1] + [0, 0, 0] + [0, 1, 0] + [1] + [1, 0, 1] + [1, 1, 0, 1, 1];
  }

  /** The three-bit codes `INT_TEMP` is built from. */
  lemma IntTempCodes()
    ensures IntToList(0, 3) == [0, 0, 0]
    ensures IntToList(2, 3) == [0, 1, 0]
    ensures IntToList(5, 3) == [1, 0, 1]
  {
  }

  /** A gain code: the three bits 4..6 of a configuration word. */
  type GainCode = g: int | 0 <= g < 8

  /** The gain code held in bits 4..6 of a configuration word. */
  function GainField(word: seq<Bit>): GainCode
    requires |word| >= 7
  {
    assert Pow2(3) == 8;
    ListToInt(word[4..7])
  }

  /** `gains`: the value of one least-significant bit, in volts, for each
      gain code: twice the full-scale range divided by 2^16. Codes 5, 6 and 7
      all select the +-0.256 V range. */
  function Gain(code: GainCode): (lsb: real)
    ensures lsb > 0.0
  {
    match code
    case 0 => 6.144 * 2.0 / 65536.0
    case 1 => 4.096 * 2.0 / 65536.0
    case 2 => 2.048 * 2.0 / 65536.0
    case 3 => 1.024 * 2.0 / 65536.0
    case 4 => 0.512 * 2.0 / 65536.0
    case 5 => 0.256 * 2.0 / 65536.0
    case 6 => 0.256 * 2.0 / 65536.0
    case 7 => 0.256 * 2.0 / 65536.0
  }

  /** Codes 5, 6 and 7 alias to the same (smallest) step. */
  lemma GainAliasing()
    ensures Gain(5) == Gain(6) == Gain(7)
    ensures forall g: GainCode :: Gain(5) <= Gain(g)
  {
  }

  /** A larger gain code never selects a coarser step, and from code 1 to
      code 5 each step halves the range. */
  lemma GainOrdering(g: GainCode, h: GainCode)
    requires g <= h
    ensures Gain(h) <= Gain(g)
    ensures 1 <= g && h == g + 1 && h <= 5 ==> Gain(h) * 2.0 == Gain(g)
  {
  }
}

=== FILE: conversion.dfy ===
/** Turning a conversion result into a number: two's-complement decoding of
    an N-bit reading scaled by the step of one least-significant bit
    (`convert`), and the choice of width and step from the echoed
    configuration word (`interpret`). */
module Conversion {
  import opened BitCodec
  import opened ConfigWord

  /** Every bit flipped (`[not x for x in data]`). */
  function Invert(bits: seq<Bit>): seq<Bit> {
    seq(|bits|, k requires 0 <= k < |bits| => 1 - bits[k])
  }

  /** The integer an N-bit two's-complement word stands for: its unsigned
      value, less 2^N when the sign bit is set. */
  function SignedValue(bits: seq<Bit>): int
    requires |bits| >= 1
  {
    ListToInt(bits) - (if bits[0] == 1 then Pow2(|bits|) else 0)
  }

  /** The value of `count` steps of `lsbSize` each. */
  function Steps(lsbSize: real, count: int): real {
    lsbSize * count as real
  }

  /** Flipping every bit of an N-bit word maps value v to 2^N - 1 - v. */
  lemma {:induction false} InvertValue(bits: seq<Bit>)
    ensures ListToInt(Invert(bits)) == Pow2(|bits|) - 1 - ListToInt(bits)
    decreases |bits|
  {
    if |bits| > 0 {
      var n := |bits|;
      assert Invert(bits)[..n - 1] == Invert(bits[..n - 1]);
      InvertValue(bits[..n - 1]);
    }
  }

  /** `convert`: a set sign bit means a negative reading, decoded as minus
      one more than the value of the inverted bits. Its result is the
      two's-complement integer times the step. */
  function Convert(data: seq<Bit>, lsbSize: real): (value: real)
    requires |data| >= 1
    ensures value == Steps(lsbSize, SignedValue(data))
  {
    if data[0] == 1 then
      InvertValue(data);
      NegatedScale(lsbSize, ListToInt(Invert(data)) + 1, SignedValue(data));
      -(lsbSize * (ListToInt(Invert(data)) + 1) as real)
    else
      lsbSize * ListToInt(data) as real
  }

  lemma NegatedScale(lsbSize: real, magnitude: int, v: int)
    requires magnitude == -v
    ensures -(lsbSize * magnitude as real) == Steps(lsbSize, v)
  {
  }

  /** An N-bit two's-complement word stands for an integer in
      [-2^(N-1), 2^(N-1) - 1], negative exactly when the sign bit is set. */
  lemma SignedValueRange(bits: seq<Bit>)
    requires |bits| >= 1
    ensures -(Pow2(|bits| - 1) as int) <= SignedValue(bits) < Pow2(|bits| - 1)
    ensures SignedValue(bits) < 0 <==> bits[0] == 1
  {
    ListToIntLeading(bits);
    assert Pow2(|bits|) == 2 * Pow2(|bits| - 1);
  }

  /** Writing an in-range integer on N bits and decoding it gives it back. */
  lemma SignedValueOfIntToList(v: int, n: nat)
    requires n >= 1 && -(Pow2(n - 1) as int) <= v < Pow2(n - 1)
    ensures SignedValue(IntToList(v, n)) == v
  {
    var bits := IntToList(v, n);
    var p := Pow2(n);
    assert p == 2 * Pow2(n - 1);
    ListToIntOfIntToList(v, n);
    ListToIntLeading(bits);
    if v >= 0 {
      DivModUnique(v, p, 0, v);
    } else {
      DivModUnique(v, p, -1, v + p);
    }
  }

  /** The step of the internal temperature sensor: 0.03125 degrees C. */
  const TEMP_LSB: real := 0.03125

  /** `interpret`: when bit 11 (temp_sensor) of the configuration is set, the
      first 14 data bits are a temperature in steps of 0.03125 degrees C;
      otherwise all data bits are a voltage in steps of `gains` for the gain
      code held in bits 4..6. */
  function Interpret(config: seq<Bit>, data: seq<Bit>): (value: real)
    requires |config| >= 12 && |data| >= 1
    ensures config[11] == 1 ==>
      value == Steps(TEMP_LSB, SignedValue(data[..if |data| < 14 then |data| else 14]))
    ensures config[11] == 0 ==>
      value == Steps(Gain(GainField(config)), SignedValue(data))
  {
    if config[11] == 1 then
      Convert(data[..if |data| < 14 then |data| else 14], TEMP_LSB)
    else
      Convert(data, Gain(GainField(config)))
  }

  /** A temperature reading lies in [-256, 255.96875] degrees C. */
  lemma TemperatureRange(config: seq<Bit>, data: seq<Bit>)
    requires |config| >= 12 && config[11] == 1 && |data| >= 14
    ensures -256.0 <= Interpret(config, data) <= 255.96875
  {
    SignedValueRange(data[..14]);
    assert Pow2(13) == 8192;
  }

  /** A voltage reading lies within the full-scale range of its gain code:
      from -2^15 steps up to 2^15 - 1 steps. */
  lemma VoltageRange(config: seq<Bit>, data: seq<Bit>)
    requires |config| >= 12 && config[11] == 0 && |data| == 16
    ensures var lsb := Gain(GainField(config));
      Steps(lsb, -32768) <= Interpret(config, data) <= Steps(lsb, 32767)
  {
    SignedValueRange(data);
    assert Pow2(15) == 32768;
    var lsb := Gain(GainField(config));
    StepsMonotone(lsb, -32768, SignedValue(data));
    StepsMonotone(lsb, SignedValue(data), 32767);
  }

  lemma StepsMonotone(lsbSize: real, m: int, n: int)
    requires lsbSize > 0.0 && m <= n
    ensures Steps(lsbSize, m) <= Steps(lsbSize, n)
  {
  }

  /** `convert` inverts writing an in-range integer on N bits: the decoded
      value is that integer times the step. */
  lemma ConvertOfIntToList(code: int, n: nat, lsbSize: real)
    requires n >= 1 && -(Pow2(n - 1) as int) <= code < Pow2(n - 1)
    ensures Convert(IntToList(code, n), lsbSize) == Steps(lsbSize, code)
  {
    SignedValueOfIntToList(code, n);
  }

  /** A voltage reading of `code` steps, sent as a 16-bit two's-complement
      word, comes back as `code` times the step of the configured gain. */
  lemma VoltageReading(config: seq<Bit>, code: int)
    requires |config| >= 12 && config[11] == 0
    requires -32768 <= code < 32768
    ensures Interpret(config, IntToList(code, 16)) == Steps(Gain(GainField(config)), code)
  {
    assert Pow2(15) == 32768;
    SignedValueOfIntToList(code, 16);
  }

  /** A temperature reading of `code` steps, sent on the top 14 bits of the
      data word, comes back as `code` steps of 0.03125 degrees C whatever the
      two bits below it. */
  lemma TemperatureReading(config: seq<Bit>, code: int, low: seq<Bit>)
    requires |config| >= 12 && config[11] == 1
    requires -8192 <= code < 8192 && |low| == 2
    ensures Interpret(config, IntToList(code, 14) + low) == Steps(TEMP_LSB, code)
  {
    assert Pow2(13) == 8192;
    var data := IntToList(code, 14) + low;
    assert data[..14] == IntToList(code, 14);
    SignedValueOfIntToList(code, 14);
  }

  /** A voltage reading of clear bits is 0 V, whatever the gain. */
  lemma InterpretZero(config: seq<Bit>, data: seq<Bit>)
    requires |config| >= 12 && config[11] == 0 && |data| >= 1
    requires forall k :: 0 <= k < |data| ==> data[k] == 0
    ensures Interpret(config, data) == 0.0
  {
    ListToIntZero(data);
    assert SignedValue(data) == 0;
  }

  /** The worked examples: 0101 is 5 and 1011 is -5. */
  lemma ConvertExamples()
    ensures Convert([0, 1, 0, 1], 1.0) == 5.0
    ensures Convert([1, 0, 1, 1], 1.0) == -5.0
  {
    assert IntToList(5, 4) == [0, 1, 0, 1];
    assert IntToList(11, 4) == [1, 0, 1, 1];
    ListToIntOfIntToList(5, 4);
    ListToIntOfIntToList(11, 4);
    assert Pow2(4) == 16;
  }
}

=== FILE: interpolation.dfy ===
/** Straight-line interpolation between two table points, and Python's
    remainder on floats, over exact reals. The thermocouple conversions are
    built from these. */
module Interpolation {

  /** The point above `x` on the line through `(x1, y1)` and `(x2, y2)`. */
  function Interpolate(x1: real, y1: real, x2: real, y2: real, x: real): real
    requires x1 < x2
  {
    y1 + (y2 - y1) * (x - x1) / (x2 - x1)
  }

  /** On a rising segment, a point in `[x1, x2)` maps into `[y1, y2)`. */
  lemma InterpolateBetween(x1: real, y1: real, x2: real, y2: real, x: real)
    requires x1 < x2 && y1 < y2 && x1 <= x < x2
    ensures y1 <= Interpolate(x1, y1, x2, y2, x) < y2
  {
    ScaleBelow(y2 - y1, x - x1, x2 - x1);
  }

  lemma ScaleBelow(p: real, t: real, d: real)
    requires 0.0 <= t < d && p > 0.0
    ensures 0.0 <= p * t / d < p
  {
    assert p - p * t / d == p * (d - t) / d;
    assert 0.0 < p * (d - t);
    assert 0.0 <= p * t;
  }

  /** Interpolating on the mirrored segment undoes the interpolation. */
  lemma InterpolateInverse(x1: real, y1: real, x2: real, y2: real, x: real)
    requires x1 < x2 && y1 < y2
    ensures Interpolate(y1, x1, y2, x2, Interpolate(x1, y1, x2, y2, x)) == x
  {
    Cancel(y2 - y1, x - x1, x2 - x1);
  }

  lemma Cancel(e: real, t: real, d: real)
    requires d > 0.0 && e > 0.0
    ensures d * (e * t / d) / e == t
  {
    assert e * t / d * d == e * t;
  }

  /** On a rising segment the interpolation is strictly increasing. */
  lemma InterpolateMonotone(x1: real, y1: real, x2: real, y2: real, x: real, x': real)
    requires x1 < x2 && y1 < y2 && x < x'
    ensures Interpolate(x1, y1, x2, y2, x) < Interpolate(x1, y1, x2, y2, x')
  {
    var e := y2 - y1;
    var d := x2 - x1;
    assert e * (x - x1) < e * (x' - x1);
    assert e * (x - x1) / d < e * (x' - x1) / d;
  }

  /** What `C_to_mV` evaluates between two entries 10 degrees apart: the
      rise over a run of 10, times the offset `x`, plus the start. */
  function RiseOverTen(y1: real, y2: real, x: real): real {
    (y2 - y1) / 10.0 * x + y1
  }

  /** What `mV_to_C` evaluates between two voltages: a rise of 10 degrees
      over the run, times the offset `x`, plus the start. */
  function TenOverRun(x1: real, x2: real, y1: real, x: real): real
    requires x1 < x2
  {
    10.0 / (x2 - x1) * x + y1
  }

  /** `RiseOverTen` is the interpolation on a segment 10 wide. */
  lemma RiseOverTenInterpolates(x1: real, y1: real, x2: real, y2: real, x: real)
    requires x2 == x1 + 10.0
    ensures RiseOverTen(y1, y2, x - x1) == Interpolate(x1, y1, x2, y2, x)
  {
  }

  /** At the start of a segment the interpolation is the start value. */
  lemma InterpolateAtStart(x1: real, y1: real, x2: real, y2: real)
    requires x1 < x2
    ensures Interpolate(x1, y1, x2, y2, x1) == y1
  {
  }

  /** `TenOverRun` is the interpolation towards a point 10 higher. */
  lemma TenOverRunInterpolates(x1: real, x2: real, y1: real, y2: real, x: real)
    requires x1 < x2 && y2 == y1 + 10.0
    ensures TenOverRun(x1, x2, y1, x - x1) == Interpolate(x1, y1, x2, y2, x)
  {
  }

  /** Python's `a % 10` on a float: the remainder takes the sign of the
      modulus, so it lies in [0, 10) even for negative `a`. */
  function Mod10(a: real): (r: real)
    ensures 0.0 <= r < 10.0
  {
    a - 10.0 * (a / 10.0).Floor as real
  }

  /** The remainder is the distance from the multiple of 10 at or below `a`. */
  lemma Mod10Of(a: real, k: int)
    requires 10.0 * k as real <= a < 10.0 * k as real + 10.0
    ensures Mod10(a) == a - 10.0 * k as real
  {
    FloorOf(a / 10.0, k);
  }

  lemma FloorOf(q: real, k: int)
    requires k as real <= q < k as real + 1.0
    ensures q.Floor == k
  {
  }
}

=== FILE: protocol.dfy ===
/** The bus protocol of the ADS1118 driver: the echo check (`verify`), one
    32-slot exchange (`ADS1118._read`) and the pipelined batch read
    (`ADS1118.read`), in which each command's reading arrives during the
    next exchange.

    The bus is abstract: a function giving the level sampled on DOUT at each
    slot of an exchange from the words clocked out on DIN so far. Pin setup,
    chip select, clocking and the waits between exchanges are not modelled. */
module Protocol {
  import opened Wrappers
  import opened BitCodec
  import opened ConfigWord
  import opened Conversion

  /** `ConnectionError`: the echoed configuration does not match the
      command. It carries the number of set bits of the echo: none suggests
      an absent converter, some suggests a second controller on the bus. */
  datatype Fault = ConnectionError(bitSum: nat)

  /** Python's `s[lo:hi]` for `0 <= lo <= hi`: bounds past the end are clamped. */
  function Slice(s: seq<Bit>, lo: nat, hi: nat): seq<Bit>
    requires lo <= hi
  {
    if |s| <= lo then [] else if |s| <= hi then s[lo..] else s[lo..hi]
  }

  /** `verify`: bits 1..14 of the echo must equal those of the command; the
      single-shot trigger (bit 0) and the reserved bit 15 are not compared. */
  function Verify(command: seq<Bit>, echo: seq<Bit>): (r: Outcome<Fault>)
    ensures |command| >= 15 && |echo| >= 15 ==>
      (r == Pass <==> forall k :: 1 <= k < 15 ==> echo[k] == command[k])
    ensures r != Pass ==> r == Fail(ConnectionError(BitSum(echo)))
  {
    SliceCompare(command, echo);
    if Slice(echo, 1, 15) != Slice(command, 1, 15) then Fail(ConnectionError(BitSum(echo))) else Pass
  }

  /** `verify` extended to reject an echo with no set bit, the case the
      docstring of `verify` attributes to an absent converter; otherwise the
      check is `verify`'s. */
  function VerifyCorrected(command: seq<Bit>, echo: seq<Bit>): (r: Outcome<Fault>)
    ensures |command| >= 15 && |echo| >= 15 ==>
      (r == Pass <==> BitSum(echo) > 0 && forall k :: 1 <= k < 15 ==> echo[k] == command[k])
    ensures r != Pass ==> r == Fail(ConnectionError(BitSum(echo)))
  {
    if BitSum(echo) == 0 then Fail(ConnectionError(0)) else Verify(command, echo)
  }

  /** An echo check: `Verify`, or `VerifyCorrected`. */
  type EchoCheck = (seq<Bit>, seq<Bit>) -> Outcome<Fault>

  lemma SliceCompare(command: seq<Bit>, echo: seq<Bit>)
    ensures |command| >= 15 && |echo| >= 15 ==>
      (Slice(echo, 1, 15) == Slice(command, 1, 15) <==> forall k :: 1 <= k < 15 ==> echo[k] == command[k])
  {
    if |command| >= 15 && |echo| >= 15 {
      assert Slice(echo, 1, 15) == echo[1..15] && Slice(command, 1, 15) == command[1..15];
      if forall k :: 1 <= k < 15 ==> echo[k] == command[k] {
        assert echo[1..15] == command[1..15];
      }
    }
  }

  /** Changing the single-shot trigger bit or the reserved bit 15 of either
      word never changes the verdict. */
  lemma VerifyIgnoresOuterBits(command: seq<Bit>, echo: seq<Bit>, a: Bit, b: Bit, c: Bit, d: Bit)
    requires |command| == 16 && |echo| == 16
    ensures Verify(command[0 := a][15 := b], echo[0 := c][15 := d]).Pass? == Verify(command, echo).Pass?
  {
    var command' := command[0 := a][15 := b];
    var echo' := echo[0 := c][15 := d];
    assert forall k :: 1 <= k < 15 ==> command'[k] == command[k] && echo'[k] == echo[k];
  }

  /** For encoded configurations the echo check compares every field except
      the single-shot trigger. */
  lemma VerifyEncoded(c: Config, e: Config)
    requires InRange(c) && InRange(e)
    ensures Verify(Encode(c), Encode(e)) == Pass <==> c.(singleShot := false) == e.(singleShot := false)
  {
    var wc := Encode(c);
    var we := Encode(e);
    EncodeBits(c);
    EncodeBits(e);
    if Verify(Encode(c), Encode(e)) == Pass {
      assert wc[1..4] == we[1..4] && wc[4..7] == we[4..7] && wc[8..11] == we[8..11];
      EncodeLayout(c);
      EncodeLayout(e);
      DivModUnique(c.multiplex, 8, 0, c.multiplex);
      DivModUnique(e.multiplex, 8, 0, e.multiplex);
      DivModUnique(c.gain, 8, 0, c.gain);
      DivModUnique(e.gain, 8, 0, e.gain);
      DivModUnique(c.dataRate, 8, 0, c.dataRate);
      DivModUnique(e.dataRate, 8, 0, e.dataRate);
      assert wc[7] == we[7] && wc[11] == we[11] && wc[12] == we[12] && wc[14] == we[14];
    }
  }

  /** The level sampled on DOUT at slot `slot` of the exchange in progress,
      given every word clocked out on DIN so far, the word in progress last. */
  type Bus = (seq<seq<Bit>>, nat) -> Bit

  /** One 32-slot cycle: the word clocked out, the 16 data bits (the reading
      of the previous command) and the 16 echoed configuration bits. */
  datatype Raw = Raw(sent: seq<Bit>, data: seq<Bit>, echo: seq<Bit>)

  /** `_read`: clock out the command twice, sample one bit per slot, and keep
      the last 32 samples: the first 16 are data, the last 16 the echo. */
  function Exchange(bus: Bus, history: seq<seq<Bit>>, command: seq<Bit>): (raw: Raw)
    requires |command| >= 16
    ensures raw.sent == command + command
    ensures |raw.data| == 16 && |raw.echo| == 16
    ensures forall k :: 0 <= k < 16 ==>
      raw.data[k] == bus(history + [raw.sent], 2 * |command| - 32 + k)
    ensures forall k :: 0 <= k < 16 ==>
      raw.echo[k] == bus(history + [raw.sent], 2 * |command| - 16 + k)
  {
    var sent := command + command;
    var samples := seq(|sent|, slot requires 0 <= slot < |sent| => bus(history + [sent], slot));
    Raw(sent, samples[|samples| - 32..|samples| - 16], samples[|samples| - 16..])
  }

  /** Each command sent twice, in order: the words a run of exchanges clocks out. */
  function Doubled(commands: seq<seq<Bit>>): (words: seq<seq<Bit>>)
    ensures |words| == |commands|
  {
    seq(|commands|, i requires 0 <= i < |commands| => commands[i] + commands[i])
  }

  ghost predicate LongEnough(commands: seq<seq<Bit>>) {
    forall i :: 0 <= i < |commands| ==> |commands[i]| >= 16
  }

  /** One exchange per command, in order, each seeing the words clocked out
      before it. */
  function ExchangeAll(bus: Bus, history: seq<seq<Bit>>, commands: seq<seq<Bit>>): (raws: seq<Raw>)
    requires LongEnough(commands)
    ensures |raws| == |commands|
    ensures forall i :: 0 <= i < |commands| ==>
      raws[i] == Exchange(bus, history + Doubled(commands[..i]), commands[i])
    ensures forall i :: 0 <= i < |commands| ==> |raws[i].data| == 16 && |raws[i].echo| == 16
    decreases |commands|
  {
    if |commands| == 0 then []
    else
      var n := |commands|;
      assert forall i :: 0 <= i < n - 1 ==> commands[..n - 1][..i] == commands[..i];
      ExchangeAll(bus, history, commands[..n - 1])
      + [Exchange(bus, history + Doubled(commands[..n - 1]), commands[n - 1])]
  }

  /** The index of the first command whose echo fails the check, or the
      number of commands when every echo passes. */
  function FirstMismatch(check: EchoCheck, commands: seq<seq<Bit>>, raws: seq<Raw>): (i: nat)
    requires |raws| >= |commands|
    ensures i <= |commands|
    ensures forall j :: 0 <= j < i ==> check(commands[j], raws[j].echo) == Pass
    ensures i < |commands| ==> check(commands[i], raws[i].echo) != Pass
    decreases |commands|
  {
    if |commands| == 0 then 0
    else if check(commands[0], raws[0].echo) != Pass then 0
    else 1 + FirstMismatch(check, commands[1..], raws[1..])
  }

  /** The pairing loop of `read`: command i is interpreted with the echo of
      exchange i and the data of exchange i + 1, and checked against the
      echo of exchange i; the first failed check aborts with no values. */
  function Pair(check: EchoCheck, commands: seq<seq<Bit>>, raws: seq<Raw>): (r: Result<seq<real>, Fault>)
    requires |raws| == |commands| + 1
    requires forall i :: 0 <= i < |raws| ==> |raws[i].data| == 16 && |raws[i].echo| == 16
    ensures r.Success? <==> FirstMismatch(check, commands, raws) == |commands|
    ensures r.Success? ==> |r.value| == |commands|
    ensures r.Success? ==> forall i {:trigger r.value[i]} :: 0 <= i < |commands| ==>
      r.value[i] == Interpret(raws[i].echo, raws[i + 1].data)
    ensures r.Failure? ==> r.error == ConnectionError(BitSum(raws[FirstMismatch(check, commands, raws)].echo))
    decreases |commands|
  {
    if |commands| == 0 then Success([])
    else
      var value := Interpret(raws[0].echo, raws[1].data);
      match check(commands[0], raws[0].echo)
      case Fail(_) => Failure(ConnectionError(BitSum(raws[0].echo)))
      case Pass =>
        match Pair(check, commands[1..], raws[1..])
        case Failure(e) => Failure(e)
        case Success(rest) => Success([value] + rest)
  }

  /** What `read` does: the exchanges it performed, and either one value
      per command or the fault it raised. */
  datatype Batch = Batch(exchanges: seq<Raw>, result: Result<seq<real>, Fault>)

  /** `read`: one exchange per command, then one `INT_TEMP` exchange to
      collect the last reading, then the pairing loop. */
  function Read(bus: Bus, history: seq<seq<Bit>>, commands: seq<seq<Bit>>): (b: Batch)
    requires LongEnough(commands)
    ensures |b.exchanges| == |commands| + 1
    ensures forall i :: 0 <= i <= |commands| ==> |b.exchanges[i].data| == 16 && |b.exchanges[i].echo| == 16
    ensures forall i :: 0 <= i < |commands| ==> b.exchanges[i].sent == commands[i] + commands[i]
    ensures b.exchanges[|commands|].sent == INT_TEMP + INT_TEMP
    ensures b.result.Success? <==>
      forall i :: 0 <= i < |commands| ==> Verify(commands[i], b.exchanges[i].echo) == Pass
    ensures b.result.Success? ==> |b.result.value| == |commands|
    ensures b.result.Success? ==> forall i {:trigger b.result.value[i]} :: 0 <= i < |commands| ==>
      b.result.value[i] == Interpret(b.exchanges[i].echo, b.exchanges[i + 1].data)
    ensures b.result.Failure? ==>
      var i := FirstMismatch(Verify, commands, b.exchanges);
      i < |commands| && b.result.error == ConnectionError(BitSum(b.exchanges[i].echo))
  {
    var all := commands + [INT_TEMP];
    assert all[..|commands|] == commands;
    var exchanges := ExchangeAll(bus, history, all);
    Batch(exchanges, Pair(Verify, commands, exchanges))
  }

  /** Start-up: after the reset hold, one `INT_TEMP` exchange whose echo
      must verify; its data is residue and is dropped. */
  function Start(bus: Bus): (r: Result<seq<seq<Bit>>, Fault>)
    ensures r.Success? <==> Verify(INT_TEMP, Exchange(bus, [], INT_TEMP).echo) == Pass
    ensures r.Success? ==> r.value == [INT_TEMP + INT_TEMP]
  {
    var raw := Exchange(bus, [], INT_TEMP);
    match Verify(INT_TEMP, raw.echo)
    case Fail(e) => Failure(e)
    case Pass => Success([raw.sent])
  }

  /** An idealised converter that converts on every command: during each
      exchange it shifts out the 16-bit two's-complement `reading` of the
      command clocked in during the previous exchange, then echoes the command
      being clocked in. Every command is taken to start a conversion that has
      finished by the next exchange, whatever its `single_shot` bit. */
  function IdealBus(reading: seq<Bit> -> int): Bus {
    (words: seq<seq<Bit>>, slot: nat) => IdealLevel(reading, words, slot)
  }

  function IdealLevel(reading: seq<Bit> -> int, words: seq<seq<Bit>>, slot: nat): Bit {
    if |words| == 0 then 0
    else if slot < 16 then
      if |words| >= 2 && |words[|words| - 2]| >= 16
      then IntToList(reading(words[|words| - 2][..16]), 16)[slot]
      else 0
    else if slot < |words[|words| - 1]| + 16 then words[|words| - 1][slot - 16]
    else 0
  }

  /** Against the idealised converter, `read` of 16-bit commands
      succeeds, and value i is command i's reading interpreted under
      command i: the pipeline pairs every reading with its own command. */
  lemma IdealRead(reading: seq<Bit> -> int, history: seq<seq<Bit>>, commands: seq<seq<Bit>>)
    requires forall i :: 0 <= i < |commands| ==> |commands[i]| == 16
    ensures var r := Read(IdealBus(reading), history, commands).result;
      r.Success? && |r.value| == |commands| &&
      forall i :: 0 <= i < |commands| ==>
        r.value[i] == Interpret(commands[i], IntToList(reading(commands[i]), 16))
  {
    var data := seq(|commands|, i requires 0 <= i < |commands| => IntToList(reading(commands[i]), 16));
    ReadUnfold(IdealBus(reading), history, commands);
    IdealExchanges(reading, history, commands);
    ReadAnswered(IdealBus(reading), history, commands, data);
  }

  /** When exchange i echoes command i and exchange i + 1 carries `data[i]`,
      `read` succeeds with command i's data interpreted under command i. */
  lemma ReadAnswered(bus: Bus, history: seq<seq<Bit>>, commands: seq<seq<Bit>>, data: seq<seq<Bit>>)
    requires forall i :: 0 <= i < |commands| ==> |commands[i]| == 16
    requires |data| == |commands|
    requires var b := Read(bus, history, commands);
      (forall i :: 0 <= i < |commands| ==> b.exchanges[i].echo == commands[i]) &&
      (forall i {:trigger data[i]} :: 0 <= i < |commands| ==> b.exchanges[i + 1].data == data[i])
    ensures var r := Read(bus, history, commands).result;
      r.Success? && |r.value| == |commands| &&
      forall i :: 0 <= i < |commands| ==> r.value[i] == Interpret(commands[i], data[i])
  {
    var b := Read(bus, history, commands);
    forall i | 0 <= i < |commands|
      ensures Verify(commands[i], b.exchanges[i].echo) == Pass
    {
    }
  }

  lemma ReadUnfold(bus: Bus, history: seq<seq<Bit>>, commands: seq<seq<Bit>>)
    requires LongEnough(commands)
    ensures var raws := ExchangeAll(bus, history, commands + [INT_TEMP]);
      Read(bus, history, commands) == Batch(raws, Pair(Verify, commands, raws))
  {
  }

  /** The exchanges of `read` against an answering converter: exchange i
      echoes command i and exchange i + 1 carries command i's reading. */
  lemma IdealExchanges(reading: seq<Bit> -> int, history: seq<seq<Bit>>, commands: seq<seq<Bit>>)
    requires forall i :: 0 <= i < |commands| ==> |commands[i]| == 16
    ensures var raws := ExchangeAll(IdealBus(reading), history, commands + [INT_TEMP]);
      (forall i :: 0 <= i < |commands| ==> raws[i].echo == commands[i]) &&
      (forall i {:trigger commands[i]} :: 0 <= i < |commands| ==>
        raws[i + 1].data == IntToList(reading(commands[i]), 16))
  {
    var all := commands + [INT_TEMP];
    assert forall j :: 0 <= j < |all| ==> |all[j]| == 16;
    forall i | 0 <= i < |commands|
      ensures ExchangeAll(IdealBus(reading), history, all)[i].echo == commands[i]
      ensures ExchangeAll(IdealBus(reading), history, all)[i + 1].data == IntToList(reading(commands[i]), 16)
    {
      assert all[i] == commands[i];
      IdealEcho(reading, history, all, i);
      IdealData(reading, history, all, i);
    }
  }

  /** When every echo repeats its command, the pairing loop succeeds with
      one interpreted reading per command. */
  lemma PairMatched(commands: seq<seq<Bit>>, raws: seq<Raw>)
    requires |raws| == |commands| + 1
    requires forall i :: 0 <= i < |raws| ==> |raws[i].data| == 16 && |raws[i].echo| == 16
    requires forall i :: 0 <= i < |commands| ==> raws[i].echo == commands[i]
    ensures Pair(Verify, commands, raws).Success?
  {
    forall i | 0 <= i < |commands|
      ensures Verify(commands[i], raws[i].echo) == Pass
    {
    }
  }

  /** In exchange i an answering converter echoes command i. */
  lemma IdealEcho(reading: seq<Bit> -> int, history: seq<seq<Bit>>, all: seq<seq<Bit>>, i: nat)
    requires forall j :: 0 <= j < |all| ==> |all[j]| == 16
    requires i < |all|
    ensures ExchangeAll(IdealBus(reading), history, all)[i].echo == all[i]
  {
    var bus := IdealBus(reading);
    var raw := ExchangeAll(bus, history, all)[i];
    var words := history + Doubled(all[..i]) + [all[i] + all[i]];
    assert raw == Exchange(bus, history + Doubled(all[..i]), all[i]);
    forall k | 0 <= k < 16
      ensures raw.echo[k] == all[i][k]
    {
      assert raw.echo[k] == bus(words, 16 + k) == IdealLevel(reading, words, 16 + k);
    }
  }

  /** In exchange i + 1 an answering converter shifts out the reading of
      command i. */
  lemma IdealData(reading: seq<Bit> -> int, history: seq<seq<Bit>>, all: seq<seq<Bit>>, i: nat)
    requires forall j :: 0 <= j < |all| ==> |all[j]| == 16
    requires i + 1 < |all|
    ensures ExchangeAll(IdealBus(reading), history, all)[i + 1].data == IntToList(reading(all[i]), 16)
  {
    var bus := IdealBus(reading);
    var before := history + Doubled(all[..i + 1]);
    assert ExchangeAll(bus, history, all)[i + 1] == Exchange(bus, before, all[i + 1]);
    assert before[|before| - 1] == all[i] + all[i];
    assert (all[i] + all[i])[..16] == all[i];
    IdealExchangeData(reading, before, all[i + 1]);
  }

  /** An answering converter shifts out, during an exchange, the reading of
      the word clocked out before it. */
  lemma IdealExchangeData(reading: seq<Bit> -> int, before: seq<seq<Bit>>, command: seq<Bit>)
    requires |command| == 16 && |before| >= 1 && |before[|before| - 1]| >= 16
    ensures Exchange(IdealBus(reading), before, command).data ==
      IntToList(reading(before[|before| - 1][..16]), 16)
  {
    var raw := Exchange(IdealBus(reading), before, command);
    var words := before + [raw.sent];
    assert words[|words| - 2] == before[|before| - 1];
    forall k | 0 <= k < 16
      ensures raw.data[k] == IntToList(reading(before[|before| - 1][..16]), 16)[k]
    {
      assert raw.data[k] == IdealLevel(reading, words, k);
    }
  }

  /** A bus with nothing attached reads 0 in every slot. */
  function SilentBus(): Bus {
    (words: seq<seq<Bit>>, slot: nat) => 0
  }

  /** With no converter on the bus every echo is all zeros: `read` fails
      exactly when some command has a set bit among bits 1..14, and then
      reports a bit sum of 0. */
  lemma SilentRead(history: seq<seq<Bit>>, commands: seq<seq<Bit>>)
    requires LongEnough(commands)
    ensures Read(SilentBus(), history, commands).result.Failure? <==>
      exists i, k :: 0 <= i < |commands| && 1 <= k < 15 && commands[i][k] == 1
    ensures Read(SilentBus(), history, commands).result.Failure? ==>
      Read(SilentBus(), history, commands).result.error == ConnectionError(0)
  {
    var b := Read(SilentBus(), history, commands);
    SilentEchoes(history, commands);
    if b.result.Failure? {
      var i := FirstMismatch(Verify, commands, b.exchanges);
      var echo := b.exchanges[i].echo;
      assert Verify(commands[i], echo) != Pass;
      var k :| 1 <= k < 15 && echo[k] != commands[i][k];
      assert echo[k] == 0;
    } else {
      forall i, k | 0 <= i < |commands| && 1 <= k < 15
        ensures commands[i][k] == 0
      {
        assert Verify(commands[i], b.exchanges[i].echo) == Pass;
        assert b.exchanges[i].echo[k] == 0;
      }
    }
  }

  /** On a silent bus every echo of `read` has no set bit. */
  lemma SilentEchoes(history: seq<seq<Bit>>, commands: seq<seq<Bit>>)
    requires LongEnough(commands)
    ensures forall i :: 0 <= i <= |commands| ==> BitSum(Read(SilentBus(), history, commands).exchanges[i].echo) == 0
  {
    var b := Read(SilentBus(), history, commands);
    forall i | 0 <= i <= |commands|
      ensures BitSum(b.exchanges[i].echo) == 0
    {
      assert forall k :: 0 <= k < 16 ==> b.exchanges[i].echo[k] == 0;
    }
  }

  /** Start-up with nothing on the bus fails with a bit sum of 0: `INT_TEMP`
      has set bits among bits 1..14, which an empty bus cannot echo. */
  lemma StartSilent()
    ensures Start(SilentBus()) == Failure(ConnectionError(0))
  {
    var echo := Exchange(SilentBus(), [], INT_TEMP).echo;
    IntTempWord();
    assert echo[4] == 0 && INT_TEMP[5] == 1;
    assert echo[5] != INT_TEMP[5];
    assert forall k :: 0 <= k < 16 ==> echo[k] == 0;
  }

  /** Start-up against the idealised converter succeeds. */
  lemma StartIdeal(reading: seq<Bit> -> int)
    ensures Start(IdealBus(reading)).Success?
  {
    var bus := IdealBus(reading);
    var echo := Exchange(bus, [], INT_TEMP).echo;
    var words: seq<seq<Bit>> := [INT_TEMP + INT_TEMP];
    forall k | 0 <= k < 16
      ensures echo[k] == INT_TEMP[k]
    {
      assert echo[k] == bus(words, 16 + k) == IdealLevel(reading, words, 16 + k);
    }
  }

  /** A command whose bits 1..14 are all clear: every code 0, continuous
      conversion, no pull-up, and `operation` off. */
  const QUIET: seq<Bit> := Encode(Config(false, 0, 0, false, 0, false, false, false))

  /** As written, `read` does not notice a missing converter when no command
      has a set bit among bits 1..14: on an empty bus it returns one reading
      of 0 V instead of raising. */
  lemma SilentReadPasses()
    ensures Read(SilentBus(), [], [QUIET]).result == Success([0.0])
  {
    QuietWord();
    var b := Read(SilentBus(), [], [QUIET]);
    var echo := b.exchanges[0].echo;
    var data := b.exchanges[1].data;
    SilentEchoes([], [QUIET]);
    assert forall k :: 0 <= k < 16 ==> echo[k] == 0;
    assert Verify(QUIET, echo) == Pass;
    assert forall k :: 0 <= k < 16 ==> data[k] == 0;
    InterpretZero(echo, data);
    assert [QUIET][0] == QUIET;
    assert b.result.Success?;
    assert |b.result.value| == 1 && b.result.value[0] == Interpret(echo, data);
    assert b.result.value == [0.0];
  }

  lemma QuietWord()
    ensures |QUIET| == 16 && forall k :: 1 <= k < 15 ==> QUIET[k] == 0
  {
    assert IntToList(0, 3) == [0, 0, 0];
  }


  /** `read` with the corrected echo check: the same exchanges, paired the
      same way, but an echo with no set bit also raises. */
  function ReadCorrected(bus: Bus, history: seq<seq<Bit>>, commands: seq<seq<Bit>>): (b: Batch)
    requires LongEnough(commands)
    ensures b.exchanges == Read(bus, history, commands).exchanges
    ensures b.result.Success? <==>
      forall i :: 0 <= i < |commands| ==> VerifyCorrected(commands[i], b.exchanges[i].echo) == Pass
    ensures b.result.Success? ==> b.result == Read(bus, history, commands).result
    ensures b.result.Failure? ==>
      var i := FirstMismatch(VerifyCorrected, commands, b.exchanges);
      i < |commands| && b.result.error == ConnectionError(BitSum(b.exchanges[i].echo))
  {
    var raws := Read(bus, history, commands).exchanges;
    var r := Pair(VerifyCorrected, commands, raws);
    if r.Success? then
      CorrectedPasses(commands, raws);
      Batch(raws, r)
    else
      Batch(raws, r)
  }

  /** An echo the corrected check passes also passes `verify`, and then both
      pairing loops produce the same values. */
  lemma CorrectedPasses(commands: seq<seq<Bit>>, raws: seq<Raw>)
    requires |raws| == |commands| + 1
    requires forall i :: 0 <= i < |raws| ==> |raws[i].data| == 16 && |raws[i].echo| == 16
    requires Pair(VerifyCorrected, commands, raws).Success?
    ensures Pair(Verify, commands, raws) == Pair(VerifyCorrected, commands, raws)
  {
    var strict := Pair(VerifyCorrected, commands, raws);
    forall i | 0 <= i < |commands|
      ensures Verify(commands[i], raws[i].echo) == Pass
    {
      assert VerifyCorrected(commands[i], raws[i].echo) == Pass;
    }
    var loose := Pair(Verify, commands, raws);
    assert loose.Success?;
    assert loose.value == strict.value;
  }

  /** With the corrected check, any batch of commands on an empty bus raises,
      with a bit sum of 0, at the first command. */
  lemma SilentReadCorrected(history: seq<seq<Bit>>, commands: seq<seq<Bit>>)
    requires LongEnough(commands) && |commands| >= 1
    ensures ReadCorrected(SilentBus(), history, commands).result == Failure(ConnectionError(0))
  {
    var b := ReadCorrected(SilentBus(), history, commands);
    SilentEchoes(history, commands);
    assert VerifyCorrected(commands[0], b.exchanges[0].echo) != Pass;
    assert FirstMismatch(VerifyCorrected, commands, b.exchanges) == 0;
  }

  /** The correction costs nothing against the idealised converter:
      for commands with the reserved bit 15 set, as `encode` sets it, the
      corrected `read` returns what `read` returns. */
  lemma IdealReadCorrected(reading: seq<Bit> -> int, history: seq<seq<Bit>>, commands: seq<seq<Bit>>)
    requires forall i :: 0 <= i < |commands| ==> |commands[i]| == 16 && commands[i][15] == 1
    ensures ReadCorrected(IdealBus(reading), history, commands).result
      == Read(IdealBus(reading), history, commands).result
    ensures ReadCorrected(IdealBus(reading), history, commands).result.Success?
  {
    var bus := IdealBus(reading);
    var b := ReadCorrected(bus, history, commands);
    ReadUnfold(bus, history, commands);
    IdealExchanges(reading, history, commands);
    forall i | 0 <= i < |commands|
      ensures VerifyCorrected(commands[i], b.exchanges[i].echo) == Pass
    {
      var echo := b.exchanges[i].echo;
      assert echo == commands[i];
      assert BitSum(echo) > 0 by {
        assert echo[15] == 1;
      }
    }
  }
}

=== FILE: typek.dfy ===
/** Type K thermocouple conversion by linear interpolation between the
    decades of typek.py's tables: degrees C to millivolts (`C_to_mV`),
    millivolts to degrees C (`mV_to_C`) and cold-junction compensation
    (`get_temp`). Values are exact reals; the source computes in binary
    floating point. The voltage table is a parameter `table`: every property
    holds for any table meeting `VoltageTable`, and `MillivoltsTable` shows
    that `MILLIVOLTS` is one. */
module TypeK {
  import opened Wrappers
  import opened Bisection
  import opened Interpolation
  import opened TypeKTables

  /** `OutOfRangeError`, carrying the rejected argument. */
  datatype RangeError = CelsiusOutOfRange(celsius: real) | MillivoltsOutOfRange(millivolts: real)

  /** `C_to_mV`: reject temperatures outside [-270, 1370]; find the entry at
      or below `c` with `bisect`; return its voltage when `c % 10` is zero,
      otherwise step `c % 10` along the rise to the next entry. */
  function CelsiusToMillivolts(table: seq<real>, c: real): (r: Result<real, RangeError>)
    requires VoltageTable(table)
    ensures r.Failure? <==> !(-270.0 <= c <= 1370.0)
    ensures r.Failure? ==> r.error == CelsiusOutOfRange(c)
  {
    if !(-270.0 <= c <= 1370.0) then Failure(CelsiusOutOfRange(c))
    else
      DegreesTable();
      var idx := Bisect(DegreesC(), c);
      assert DegreesC()[0] <= c;
      var y1 := table[idx - 1];
      var x := Mod10(c);
      if x == 0.0 then Success(y1)
      else
        assert idx < 165 by {
          if idx == 165 {
            assert DegreesC()[164] <= c;
            Mod10Of(c, 137);
          }
        }
        var y2 := table[idx];
        Success(RiseOverTen(y1, y2, x))
  }

  /** `mV_to_C`: reject voltages outside [-6.458, 54.819); find the entry at
      or below `mv` with `bisect`; step the offset from it across a rise of
      10 degrees to the next entry. */
  function MillivoltsToCelsius(table: seq<real>, mv: real): (r: Result<real, RangeError>)
    requires VoltageTable(table)
    ensures r.Failure? <==> !(-6.458 <= mv < 54.819)
    ensures r.Failure? ==> r.error == MillivoltsOutOfRange(mv)
  {
    if !(-6.458 <= mv < 54.819) then Failure(MillivoltsOutOfRange(mv))
    else
      DegreesTable();
      var idx := Bisect(table, mv);
      assert table[0] <= mv < table[164];
      var y1 := DegreesC()[idx - 1];
      var x1 := table[idx - 1];
      var x2 := table[idx];
      var x := mv - x1;
      Success(TenOverRun(x1, x2, y1, x))
  }

  /** `get_temp`: add the thermocouple voltage to the voltage of the cold
      junction and convert the sum back to degrees C. Either conversion's
      range error is passed on. */
  function GetTemp(table: seq<real>, coldJunction: real, tcVoltage: real): (r: Result<real, RangeError>)
    requires VoltageTable(table)
    ensures !(-270.0 <= coldJunction <= 1370.0) ==> r == Failure(CelsiusOutOfRange(coldJunction))
  {
    var reference :- CelsiusToMillivolts(table, coldJunction);
    MillivoltsToCelsius(table, reference + tcVoltage)
  }

  /** The segment of `DEGREES_C` holding a temperature below 1370: the one
      `C_to_mV` picks with `bisect`. */
  lemma CelsiusSegmentOf(c: real) returns (i: nat)
    requires -270.0 <= c < 1370.0
    ensures i < 164 && DegreesC()[i] <= c < DegreesC()[i + 1]
    ensures (DegreesTable(); i == Bisect(DegreesC(), c) - 1)
  {
    DegreesTable();
    var idx := Bisect(DegreesC(), c);
    assert DegreesC()[0] <= c < DegreesC()[164];
    i := idx - 1;
  }

  /** The segment of the voltage table holding a voltage in the accepted
      range: the one `mV_to_C` picks with `bisect`. */
  lemma MillivoltsSegmentOf(table: seq<real>, mv: real) returns (i: nat)
    requires VoltageTable(table) && -6.458 <= mv < 54.819
    ensures i < 164 && table[i] <= mv < table[i + 1]
    ensures i == Bisect(table, mv) - 1
  {
    var idx := Bisect(table, mv);
    assert table[0] <= mv < table[164];
    i := idx - 1;
  }

  /** Between two entries of `DEGREES_C`, `C_to_mV` is the straight line
      through the two table points. */
  lemma CelsiusSegment(table: seq<real>, i: nat, c: real)
    requires VoltageTable(table)
    requires i < 164 && DegreesC()[i] <= c < DegreesC()[i + 1]
    ensures CelsiusToMillivolts(table, c)
      == Success(Interpolate(DegreesC()[i], table[i], DegreesC()[i + 1], table[i + 1], c))
  {
    DegreesTable();
    var d1, d2, m1, m2 := DegreesC()[i], DegreesC()[i + 1], table[i], table[i + 1];
    BisectSegment(DegreesC(), c, i);
    Mod10Of(c, i - 27);
    var idx := Bisect(DegreesC(), c);
    assert table[idx - 1] == m1;
    if c == d1 {
      InterpolateAtStart(d1, m1, d2, m2);
    } else {
      assert table[idx] == m2;
      RiseOverTenInterpolates(d1, m1, d2, m2, c);
      assert CelsiusToMillivolts(table, c) == Success(RiseOverTen(table[idx - 1], table[idx], Mod10(c)));
    }
  }

  /** Between two entries of the voltage table, `mV_to_C` is the straight
      line through the two table points. */
  lemma MillivoltsSegment(table: seq<real>, i: nat, mv: real)
    requires VoltageTable(table)
    requires i < 164 && table[i] <= mv < table[i + 1]
    ensures MillivoltsToCelsius(table, mv)
      == Success(Interpolate(table[i], DegreesC()[i], table[i + 1], DegreesC()[i + 1], mv))
  {
    DegreesTable();
    var d1, d2, m1, m2 := DegreesC()[i], DegreesC()[i + 1], table[i], table[i + 1];
    assert table[0] <= m1 && m2 <= table[164];
    BisectSegment(table, mv, i);
    var idx := Bisect(table, mv);
    assert table[idx - 1] == m1 && table[idx] == m2 && DegreesC()[idx - 1] == d1;
    TenOverRunInterpolates(m1, m2, d1, d2, mv);
    assert MillivoltsToCelsius(table, mv) == Success(TenOverRun(m1, m2, d1, mv - m1));
  }

  /** Bracketing: between two entries `C_to_mV` returns a voltage from the
      lower entry's up to, not reaching, the upper one's, and the lower
      entry's exactly when `c` is the lower breakpoint. */
  lemma CelsiusBracket(table: seq<real>, i: nat, c: real)
    requires VoltageTable(table)
    requires i < 164 && DegreesC()[i] <= c < DegreesC()[i + 1]
    ensures CelsiusToMillivolts(table, c).Success?
    ensures table[i] <= CelsiusToMillivolts(table, c).value < table[i + 1]
    ensures CelsiusToMillivolts(table, c).value == table[i] <==> c == DegreesC()[i]
  {
    DegreesTable();
    var d1, d2, m1, m2 := DegreesC()[i], DegreesC()[i + 1], table[i], table[i + 1];
    CelsiusSegment(table, i, c);
    InterpolateBetween(d1, m1, d2, m2, c);
    InterpolateAtStart(d1, m1, d2, m2);
    if d1 < c {
      InterpolateMonotone(d1, m1, d2, m2, d1, c);
    }
  }

  /** Bracketing: between two voltage entries `mV_to_C` returns a
      temperature from the lower entry's up to, not reaching, the upper
      one's, and the lower entry's exactly when `mv` is a table entry. */
  lemma MillivoltsBracket(table: seq<real>, i: nat, mv: real)
    requires VoltageTable(table)
    requires i < 164 && table[i] <= mv < table[i + 1]
    ensures MillivoltsToCelsius(table, mv).Success?
    ensures DegreesC()[i] <= MillivoltsToCelsius(table, mv).value < DegreesC()[i + 1]
    ensures MillivoltsToCelsius(table, mv).value == DegreesC()[i] <==> mv == table[i]
  {
    DegreesTable();
    var d1, d2, m1, m2 := DegreesC()[i], DegreesC()[i + 1], table[i], table[i + 1];
    MillivoltsSegment(table, i, mv);
    InterpolateBetween(m1, d1, m2, d2, mv);
    InterpolateAtStart(m1, d1, m2, d2);
    if m1 < mv {
      InterpolateMonotone(m1, d1, m2, d2, m1, mv);
    }
  }

  /** The last entry: 1370 degrees C is accepted and reads the table's last
      voltage, 54.819 mV. */
  lemma CelsiusTop(table: seq<real>)
    requires VoltageTable(table)
    ensures CelsiusToMillivolts(table, 1370.0) == Success(54.819)
  {
    DegreesTable();
    assert Splits(DegreesC(), 1370.0, 165);
    SplitsUnique(DegreesC(), 1370.0, 165, Bisect(DegreesC(), 1370.0));
    Mod10Of(1370.0, 137);
  }

  /** At every entry of `DEGREES_C`, `C_to_mV` returns the tabulated voltage. */
  lemma CelsiusBreakpoint(table: seq<real>, i: nat)
    requires VoltageTable(table) && i < 165
    ensures CelsiusToMillivolts(table, DegreesC()[i]) == Success(table[i])
  {
    if i == 164 {
      DegreesTable();
      CelsiusTop(table);
    } else {
      CelsiusSegment(table, i, DegreesC()[i]);
    }
  }

  /** At every entry of the voltage table but the last, `mV_to_C` returns
      the tabulated temperature. */
  lemma MillivoltsBreakpoint(table: seq<real>, i: nat)
    requires VoltageTable(table) && i < 164
    ensures MillivoltsToCelsius(table, table[i]) == Success(DegreesC()[i])
  {
    MillivoltsSegment(table, i, table[i]);
  }

  /** Every accepted temperature maps into the voltage table's range. */
  lemma CelsiusRange(table: seq<real>, c: real)
    requires VoltageTable(table) && -270.0 <= c <= 1370.0
    ensures -6.458 <= CelsiusToMillivolts(table, c).value <= 54.819
  {
    if c == 1370.0 {
      CelsiusTop(table);
    } else {
      var i := CelsiusSegmentOf(c);
      DegreesTable();
      CelsiusSegment(table, i, c);
      InterpolateBetween(DegreesC()[i], table[i], DegreesC()[i + 1], table[i + 1], c);
      assert table[0] <= table[i] && table[i + 1] <= table[164];
    }
  }

  /** Every accepted voltage maps to a temperature in [-270, 1370). */
  lemma MillivoltsRange(table: seq<real>, mv: real)
    requires VoltageTable(table) && -6.458 <= mv < 54.819
    ensures -270.0 <= MillivoltsToCelsius(table, mv).value < 1370.0
  {
    var i := MillivoltsSegmentOf(table, mv);
    DegreesTable();
    MillivoltsSegment(table, i, mv);
    InterpolateBetween(table[i], DegreesC()[i], table[i + 1], DegreesC()[i + 1], mv);
  }

  /** `mV_to_C` inverts `C_to_mV` on [-270, 1370). */
  lemma CelsiusRoundTrip(table: seq<real>, c: real)
    requires VoltageTable(table) && -270.0 <= c < 1370.0
    ensures CelsiusToMillivolts(table, c).Success?
    ensures MillivoltsToCelsius(table, CelsiusToMillivolts(table, c).value) == Success(c)
  {
    var i := CelsiusSegmentOf(c);
    DegreesTable();
    var d1, d2, m1, m2 := DegreesC()[i], DegreesC()[i + 1], table[i], table[i + 1];
    CelsiusSegment(table, i, c);
    var mv := Interpolate(d1, m1, d2, m2, c);
    InterpolateBetween(d1, m1, d2, m2, c);
    assert table[0] <= m1 && m2 <= table[164];
    MillivoltsSegment(table, i, mv);
    InterpolateInverse(d1, m1, d2, m2, c);
  }

  /** `C_to_mV` inverts `mV_to_C` on [-6.458, 54.819). */
  lemma MillivoltsRoundTrip(table: seq<real>, mv: real)
    requires VoltageTable(table) && -6.458 <= mv < 54.819
    ensures MillivoltsToCelsius(table, mv).Success?
    ensures CelsiusToMillivolts(table, MillivoltsToCelsius(table, mv).value) == Success(mv)
  {
    var i := MillivoltsSegmentOf(table, mv);
    DegreesTable();
    var d1, d2, m1, m2 := DegreesC()[i], DegreesC()[i + 1], table[i], table[i + 1];
    MillivoltsSegment(table, i, mv);
    var c := Interpolate(m1, d1, m2, d2, mv);
    InterpolateBetween(m1, d1, m2, d2, mv);
    CelsiusSegment(table, i, c);
    InterpolateInverse(m1, d1, m2, d2, mv);
  }

  /** `C_to_mV` is strictly increasing over its whole range. */
  lemma CelsiusMonotone(table: seq<real>, c: real, c': real)
    requires VoltageTable(table) && -270.0 <= c < c' <= 1370.0
    ensures CelsiusToMillivolts(table, c).value < CelsiusToMillivolts(table, c').value
  {
    var i := CelsiusSegmentOf(c);
    DegreesTable();
    CelsiusSegment(table, i, c);
    InterpolateBetween(DegreesC()[i], table[i], DegreesC()[i + 1], table[i + 1], c);
    if c' == 1370.0 {
      CelsiusTop(table);
      assert table[i + 1] <= table[164];
    } else {
      var j := CelsiusSegmentOf(c');
      BisectMonotone(DegreesC(), c, c');
      CelsiusSegment(table, j, c');
      if i == j {
        InterpolateMonotone(DegreesC()[i], table[i], DegreesC()[i + 1], table[i + 1], c, c');
      } else {
        InterpolateBetween(DegreesC()[j], table[j], DegreesC()[j + 1], table[j + 1], c');
        assert table[i + 1] <= table[j];
      }
    }
  }

  /** `mV_to_C` is strictly increasing over its whole range. */
  lemma MillivoltsMonotone(table: seq<real>, mv: real, mv': real)
    requires VoltageTable(table) && -6.458 <= mv < mv' < 54.819
    ensures MillivoltsToCelsius(table, mv).value < MillivoltsToCelsius(table, mv').value
  {
    var i := MillivoltsSegmentOf(table, mv);
    var j := MillivoltsSegmentOf(table, mv');
    DegreesTable();
    BisectMonotone(table, mv, mv');
    MillivoltsSegment(table, i, mv);
    MillivoltsSegment(table, j, mv');
    if i == j {
      InterpolateMonotone(table[i], DegreesC()[i], table[i + 1], DegreesC()[i + 1], mv, mv');
    } else {
      InterpolateBetween(table[i], DegreesC()[i], table[i + 1], DegreesC()[i + 1], mv);
      InterpolateBetween(table[j], DegreesC()[j], table[j + 1], DegreesC()[j + 1], mv');
      assert DegreesC()[i + 1] <= DegreesC()[j];
    }
  }

  /** Cold-junction compensation: a thermocouple at `t` whose cold junction
      sits at `coldJunction` develops the difference of their table
      voltages, and `get_temp` recovers `t` from it. */
  lemma Compensation(table: seq<real>, coldJunction: real, t: real)
    requires VoltageTable(table)
    requires -270.0 <= coldJunction <= 1370.0 && -270.0 <= t < 1370.0
    ensures CelsiusToMillivolts(table, t).Success?
    ensures GetTemp(table, coldJunction,
        CelsiusToMillivolts(table, t).value - CelsiusToMillivolts(table, coldJunction).value)
      == Success(t)
  {
    CelsiusRoundTrip(table, t);
    var reference := CelsiusToMillivolts(table, coldJunction);
    var target := CelsiusToMillivolts(table, t).value;
    assert reference.Success?;
    assert reference.value + (target - reference.value) == target;
    assert GetTemp(table, coldJunction, target - reference.value)
      == MillivoltsToCelsius(table, target);
  }

  /** With no thermocouple voltage the reading is the cold-junction
      temperature itself. */
  lemma GetTempAtColdJunction(table: seq<real>, coldJunction: real)
    requires VoltageTable(table) && -270.0 <= coldJunction < 1370.0
    ensures GetTemp(table, coldJunction, 0.0) == Success(coldJunction)
  {
    CelsiusRoundTrip(table, coldJunction);
  }

  /** On table points compensation is exact: junctions at entries `j` and
      `i` give back entry `i`. */
  lemma TableCompensation(table: seq<real>, i: nat, j: nat)
    requires VoltageTable(table) && i < 164 && j < 165
    ensures GetTemp(table, DegreesC()[j], table[i] - table[j]) == Success(DegreesC()[i])
  {
    DegreesTable();
    CelsiusBreakpoint(table, i);
    CelsiusBreakpoint(table, j);
    Compensation(table, DegreesC()[j], DegreesC()[i]);
  }

  /** For a fixed cold junction, a larger thermocouple voltage reads as a
      higher temperature. */
  lemma GetTempMonotone(table: seq<real>, coldJunction: real, v: real, v': real)
    requires VoltageTable(table) && -270.0 <= coldJunction <= 1370.0
    requires -6.458 <= CelsiusToMillivolts(table, coldJunction).value + v
    requires v < v' && CelsiusToMillivolts(table, coldJunction).value + v' < 54.819
    ensures GetTemp(table, coldJunction, v).Success? && GetTemp(table, coldJunction, v').Success?
    ensures GetTemp(table, coldJunction, v).value < GetTemp(table, coldJunction, v').value
  {
    var reference := CelsiusToMillivolts(table, coldJunction).value;
    GetTempOnReference(table, coldJunction, v);
    GetTempOnReference(table, coldJunction, v');
    MillivoltsMonotone(table, reference + v, reference + v');
  }

  lemma GetTempOnReference(table: seq<real>, coldJunction: real, tcVoltage: real)
    requires VoltageTable(table) && -270.0 <= coldJunction <= 1370.0
    ensures GetTemp(table, coldJunction, tcVoltage)
      == MillivoltsToCelsius(table, CelsiusToMillivolts(table, coldJunction).value + tcVoltage)
  {
  }

  /** `get_temp` fails exactly when the cold junction is out of range or
      the summed voltage is, with the error of the conversion that rejected
      its argument. */
  lemma GetTempErrors(table: seq<real>, coldJunction: real, tcVoltage: real)
    requires VoltageTable(table)
    ensures GetTemp(table, coldJunction, tcVoltage).Failure? <==> (!(-270.0 <= coldJunction <= 1370.0)
      || !(-6.458 <= CelsiusToMillivolts(table, coldJunction).value + tcVoltage < 54.819))
    ensures -270.0 <= coldJunction <= 1370.0 && GetTemp(table, coldJunction, tcVoltage).Failure? ==>
      GetTemp(table, coldJunction, tcVoltage).error
        == MillivoltsOutOfRange(CelsiusToMillivolts(table, coldJunction).value + tcVoltage)
  {
    if -270.0 <= coldJunction <= 1370.0 {
      GetTempOnReference(table, coldJunction, tcVoltage);
    }
  }

  /** The top of the tables is asymmetric: `C_to_mV` accepts 1370 degrees C
      but `mV_to_C` rejects the 54.819 mV it returns, so `get_temp` fails
      for a cold junction at 1370 even with no thermocouple voltage. */
  lemma TopEdge(table: seq<real>)
    requires VoltageTable(table)
    ensures CelsiusToMillivolts(table, 1370.0) == Success(54.819)
    ensures MillivoltsToCelsius(table, 54.819) == Failure(MillivoltsOutOfRange(54.819))
    ensures GetTemp(table, 1370.0, 0.0) == Failure(MillivoltsOutOfRange(54.819))
  {
    CelsiusTop(table);
  }

  /** On the repository's table: 0 degrees C reads 0.000 mV and 10 degrees C
      reads 0.397 mV, and 0.397 mV reads back as 10 degrees C. */
  lemma DecadeExamples()
    ensures (MillivoltsTable(); CelsiusToMillivolts(MILLIVOLTS, 0.0) == Success(0.0))
    ensures (MillivoltsTable(); CelsiusToMillivolts(MILLIVOLTS, 10.0) == Success(0.397))
    ensures (MillivoltsTable(); MillivoltsToCelsius(MILLIVOLTS, 0.397) == Success(10.0))
  {
    MillivoltsTable();
    DegreesTable();
    CelsiusBreakpoint(MILLIVOLTS, 27);
    CelsiusBreakpoint(MILLIVOLTS, 28);
    MillivoltsBreakpoint(MILLIVOLTS, 28);
  }
}

=== FILE: typek_tables.dfy ===
/** The type K thermocouple tables of typek.py: `DEGREES_C`, every 10
    degrees C from -270 to 1370, and `MILLIVOLTS`, the thermocouple voltage
    at each of those temperatures with the reference junction at 0 degrees C
    (the decade values of the NIST ITS-90 type K table). */
module TypeKTables {
  import opened Bisection

  /** `DEGREES_C`: -270 to 1370 degrees C in steps of 10 (`range(-270, 1380, 10)`). */
  function DegreesC(): seq<real> {
    seq(165, i requires 0 <= i < 165 => (-270 + 10 * i) as real)
  }

  /** Entries 0..32 of `MILLIVOLTS`: -270 to 50 degrees C. */
  const MV_ROW_0: seq<real> := [
    -6.458, -6.441, -6.404, -6.344, -6.262, -6.158, -6.035, -5.891,
    -5.730, -5.550, -5.354, -5.141, -4.913, -4.669, -4.411, -4.138,
    -3.852, -3.554, -3.243, -2.920, -2.587, -2.243, -1.889, -1.527,
    -1.156, -0.778, -0.392, 0.000, 0.397, 0.798, 1.203, 1.612,
    2.023]

  /** Entries 33..65 of `MILLIVOLTS`: 60 to 380 degrees C. */
  const MV_ROW_1: seq<real> := [
    2.436, 2.851, 3.267, 3.682, 4.096, 4.509, 4.920, 5.328,
    5.735, 6.138, 6.540, 6.941, 7.340, 7.739, 8.138, 8.539,
    8.940, 9.343, 9.747, 10.153, 10.561, 10.971, 11.382, 11.795,
    12.209, 12.624, 13.040, 13.457, 13.874, 14.293, 14.713, 15.133,
    15.554]

  /** Entries 66..98 of `MILLIVOLTS`: 390 to 710 degrees C. */
  const MV_ROW_2: seq<real> := [
    15.975, 16.397, 16.820, 17.243, 17.667, 18.091, 18.516, 18.941,
    19.366, 19.792, 20.218, 20.644, 21.071, 21.497, 21.924, 22.350,
    22.776, 23.203, 23.629, 24.055, 24.480, 24.905, 25.330, 25.755,
    26.179, 26.602, 27.025, 27.447, 27.869, 28.289, 28.710, 29.129,
    29.548]

  /** Entries 99..131 of `MILLIVOLTS`: 720 to 1040 degrees C. */
  const MV_ROW_3: seq<real> := [
    29.965, 30.382, 30.798, 31.213, 31.628, 32.041, 32.453, 32.865,
    33.275, 33.685, 34.093, 34.501, 34.908, 35.313, 35.718, 36.121,
    36.524, 36.925, 37.326, 37.725, 38.124, 38.522, 38.918, 39.314,
    39.708, 40.101, 40.494, 40.885, 41.276, 41.665, 42.053, 42.440,
    42.826]

  /** Entries 132..164 of `MILLIVOLTS`: 1050 to 1370 degrees C. */
  const MV_ROW_4: seq<real> := [
    43.211, 43.595, 43.978, 44.359, 44.740, 45.119, 45.497, 45.873,
    46.249, 46.623, 46.995, 47.367, 47.737, 48.105, 48.473, 48.838,
    49.202, 49.565, 49.926, 50.286, 50.644, 51.000, 51.355, 51.708,
    52.060, 52.410, 52.759, 53.106, 53.451, 53.795, 54.138, 54.479,
    54.819]

  /** `MILLIVOLTS`: the thermocouple voltage at each entry of `DEGREES_C`,
      with the reference junction at 0 degrees C. */
  const MILLIVOLTS: seq<real> := MV_ROW_0 + MV_ROW_1 + MV_ROW_2 + MV_ROW_3 + MV_ROW_4

  lemma AppendUp(a: seq<real>, b: seq<real>)
    requires AdjacentUp(a) && AdjacentUp(b) && |a| > 0 && |b| > 0 && a[|a| - 1] < b[0]
    ensures AdjacentUp(a + b)
  {
    var s := a + b;
    forall i | 1 <= i < |s|
      ensures s[i - 1] < s[i]
    {
      if i < |a| {
        assert s[i - 1] == a[i - 1] && s[i] == a[i];
      } else if i == |a| {
        assert s[i - 1] == a[|a| - 1] && s[i] == b[0];
      } else {
        assert s[i - 1] == b[i - 1 - |a|] && s[i] == b[i - |a|];
      }
    }
  }

  lemma Row0Up() ensures AdjacentUp(MV_ROW_0) {}
  lemma Row1Up() ensures AdjacentUp(MV_ROW_1) {}
  lemma Row2Up() ensures AdjacentUp(MV_ROW_2) {}
  lemma Row3Up() ensures AdjacentUp(MV_ROW_3) {}
  lemma Row4Up() ensures AdjacentUp(MV_ROW_4) {}

  /** `DEGREES_C` has 165 entries, 10 degrees apart from -270 to 1370. */
  lemma DegreesTable()
    ensures |DegreesC()| == 165
    ensures forall i :: 0 <= i < 165 ==> DegreesC()[i] == (-270 + 10 * i) as real
    ensures Sorted(DegreesC())
    ensures DegreesC()[0] == -270.0 && DegreesC()[27] == 0.0 && DegreesC()[164] == 1370.0
  {
  }

  lemma DegreesIncreasing()
    ensures StrictlyIncreasing(DegreesC())
  {
  }

  /** What the conversions rely on in a voltage table: one entry per entry
      of `DEGREES_C`, strictly increasing, from -6.458 to 54.819 mV (the
      bounds `mV_to_C` checks against). `Sorted` follows from
      `StrictlyIncreasing`; it is stated as well because `bisect` requires
      it. */
  ghost predicate VoltageTable(table: seq<real>) {
    |table| == 165 && StrictlyIncreasing(table) && Sorted(table)
    && table[0] == -6.458 && table[164] == 54.819
  }

  /** `MILLIVOLTS` is such a table, and reads 0 mV at 0 degrees C (entry 27)
      and 0.397 mV at 10 degrees C (entry 28). */
  lemma MillivoltsTable()
    ensures VoltageTable(MILLIVOLTS)
    ensures MILLIVOLTS[27] == 0.0 && MILLIVOLTS[28] == 0.397
  {
    Row0Up();
    Row1Up();
    Row2Up();
    Row3Up();
    Row4Up();
    AppendUp(MV_ROW_0, MV_ROW_1);
    AppendUp(MV_ROW_0 + MV_ROW_1, MV_ROW_2);
    AppendUp(MV_ROW_0 + MV_ROW_1 + MV_ROW_2, MV_ROW_3);
    AppendUp(MV_ROW_0 + MV_ROW_1 + MV_ROW_2 + MV_ROW_3, MV_ROW_4);
    AdjacentIncreasing(MILLIVOLTS);
    StrictlyIncreasingSorted(MILLIVOLTS);
    assert MILLIVOLTS[164] == MV_ROW_4[32];
  }
}

=== FILE: wrappers.dfy ===
/** Failure-compatible result types: the converter's exceptions (`ConnectionError`,
    `OutOfRangeError`) become explicit failure values. */
module Wrappers {

  /** Either a computed value or the error the source would have raised. */
  datatype Result<+T, +E> = Success(value: T) | Failure(error: E) {

    predicate IsFailure() {
      Failure?
    }

    function PropagateFailure<U>(): Result<U, E>
      requires Failure?
    {
      Failure(error)
    }

    function Extract(): T
      requires Success?
    {
      value
    }
  }

  /** A check that either passes or fails with an error, carrying no value. */
  datatype Outcome<+E> = Pass | Fail(error: E)
}
